=== FILE: README.md ===
# CV bank: profile store, session and admin views

A Dafny model of the core of a single-page CV bank. Candidates register, log
in and keep a profile made of personal data, professional experiences,
academic records, languages, tools, references and settings. An
administrator browses the candidates and sees summary statistics. Everything
lives in the browser's persistent storage: one key holds the whole database
(a user list plus a map from user id to profile), another holds the cached
session (token, name, id, role).

The model has these modules:

- `Basics` — `Option`, the order-keeping filter `Keep`, `FindFirst`,
  `IsSubsequence` and `Occurrences`.
- `Text` — the JavaScript string operations the core relies on:
  - ASCII `toLowerCase` (`Lower`);
  - `includes` (`Contains`);
  - `split` on one character (`Split`, with its inverse `Join`);
  - `Number` on digit strings (`ToNumber`).
- `Entities` — the records a profile is made of, and the four id-keyed
  collection operations: prepend, append, replace by id, remove by id.
- `Store` (`database.ts`):
  - `readDb` seeds the administrator when storage is empty;
  - user lookup and creation;
  - every profile writer, as an edit applied by `modifyCurrentUserProfile`;
  - the two admin readers.
- `Session` (`auth.ts`) — login, register, logout and the session
  predicates. These act on `World(db, auth)`, the two stored keys, so the
  store and the session form one state machine.
- `Routes` (`App.tsx`, `components/AdminRoute.tsx`) — the route table and
  the admin guard, as pure functions from a path and the cached session to
  a decision. The guards read the current session. The catch-all reads the
  session from when `App` last rendered, which is the page load.
- `UserList` (`pages/admin/UserListPage.tsx`) — the candidate rows, the
  search filter and the experience-range filter. `FilteredCandidates` is
  the list the page computes, with the range test as written;
  `FilteredCandidatesCorrected` is the same list with the range test the
  option labels mean (see "Findings").
- `Dashboard` (`pages/admin/AdminDashboard.tsx`):
  - the candidate count;
  - the five experience buckets;
  - the skill counting and the stable descending sort behind the "Top 5"
    list.

The model leaves three things to the caller:

- The clock. `now` is an ISO timestamp and `millis` is the decimal text of
  `Date.now()`.
- The ids the writers generate. These arrive in `newId`.
- The date arithmetic of the admin pages. `Span` maps an experience to its
  signed length in years.

## Model

| member | source | states |
|---|---|---|
| `Store.Load` | database.ts:44-68 | An absent or corrupt stored database is replaced by one holding exactly the administrator (`admin_user_001`, `Administrador`, `admin@usm.edu.co`, role admin, created now) with an empty profile and no other profile. A stored database is used unchanged. |
| `Store.ProfileOf` | database.ts:78-81 | A user's profile is the one stored under the id, or the empty profile when none is stored. |
| `Store.FindUserByEmail` | database.ts:86-89 | The result is the first user whose email equals the given one ignoring letter case. It is absent exactly when no user's email matches. |
| `Store.CreateUser` | database.ts:91-104 | Exactly one user is appended, with role user, id `user_<millis>`, the given name and email, and created now. Earlier users keep their order. An empty profile is installed under the new id, and every other profile key and value is unchanged. |
| `Store.CreateThenFind` | database.ts:86-104 | When no user had the email before, looking the email up after creating a user finds that new user. |
| `Store.ApplyEdit` | database.ts:122-200 | Every profile writer changes only the part of the profile it names. The other six parts are unchanged. |
| `Store.SaveOverwrites` | database.ts:124-200 | Saving personal data or settings stores exactly the value given. |
| `Store.AddPrepends` | database.ts:128-186 | Adding an experience, academic record or reference puts the new item, with its id, at index 0 and shifts the earlier items by one. |
| `Store.AddAppends` | database.ts:164-175 | Adding a language or tool puts the new item last and keeps the earlier items in front. |
| `Store.UpdateReplaces` | database.ts:133-191 | An update keeps the length and order, replaces every item with the updated id, and leaves the others as they were. |
| `Store.DeleteRemoves` | database.ts:138-196 | Every delete keeps the other items in their original order, with every copy of each. No item with the deleted id is left, and the collection shrinks by exactly the number of items that carried it. |
| `Store.DeleteAbsentIsNoOp` | database.ts:138-196 | Deleting an id no item carries leaves the profile unchanged. |
| `Store.DeleteEditIdempotent` | database.ts:138-196 | Applying the same delete twice is the same as applying it once. |
| `Store.ModifyCurrentUserProfile` | database.ts:109-120 | With a null or empty user id the stored database is left exactly as it was. Otherwise the loaded database gets the edited profile under the user's id, and the user list and every other profile stay as loaded. |
| `Store.DeleteTwiceIsDeleteOnce` | database.ts:109-120 | Through the store, a repeated delete changes nothing more than the first one did. |
| `Store.AddExperienceThenRead` | database.ts:127-132 | After adding an experience, the user's profile reads back as the new record followed by the earlier ones. |
| `Store.UpdateExperienceThenRead` | database.ts:133-137 | After an update of an existing id, the new value is present and is the only record under that id. |
| `Store.AdminGetAllUsersWithProfiles` | database.ts:205-213 | The rows list exactly the accounts with role user, in list order, with administrators left out. Each row carries its stored profile or the empty profile. |
| `Store.AdminGetUserProfile` | database.ts:215-223 | The result is null exactly when no user of any role has the id. Otherwise it is the first user with that id, paired with the profile stored under the id. |
| `Entities.ReplaceById` | database.ts:135 | The mapped list has the same length. Items with the id become the new value, and all others stay in place. |
| `Entities.RemoveById` | database.ts:140 | The filtered list is an order-keeping sub-list. Each item with another id keeps all its copies, and no item with the id is left. The list shrinks by exactly the number of items that carried the id. |
| `Entities.ReplaceThenRead` | database.ts:133-137 | The updated value is present whenever its id was, and it is the only value under that id. Replacing an absent id changes nothing. |
| `Entities.RemoveIdempotent` | database.ts:138-142 | Removing an id twice is removing it once. |
| `Session.GetAuthState` | auth.ts:12-19 | An absent or unparseable session reads as all fields null. A stored one is returned as it is. |
| `Session.GetUserName` | auth.ts:92-94 | The displayed name is never empty. It is the cached name, or `Usuario` when that is null or empty. |
| `Session.MissingSessionIsLoggedOut` | auth.ts:88-102 | Without a stored session, nobody is authenticated or admin, there is no current id, and the name is `Usuario`. |
| `Session.Login` | auth.ts:25-54 | There are four outcomes. Admin credentials with a matching account give an admin session for the first match. Admin credentials without one throw and leave the session alone. Any other password for a known email gives a user session, since the password is not checked. An unknown email returns false and leaves the session alone. In every case the seeded database is persisted. |
| `Session.Register` | auth.ts:56-78 | An empty field returns false and touches nothing. A taken email (any letter case) returns false and keeps the session. Otherwise one account is created and a user session is stored for it. |
| `Session.Logout` | auth.ts:80-81 | The stored session is removed (absent, not merely logged-out) and the database is kept. Afterwards nobody is authenticated or admin. |
| `Session.EditProfile` | database.ts:109-120 | A profile writer run through the session leaves the session as it was. With no session user, storage is unchanged. Otherwise the session user's profile becomes the edited one, and the accounts and every other user's profile read back as before. |
| `Session.Settled` | database.ts:44-68 | After `readDb` the loaded database is stored (the seeded one when storage was empty) and the session key is untouched. A stored database is left as it was. |
| `Session.OwnProfile` | database.ts:78-81 | The profile readers return the profile stored under the session's id, or the empty one. A null id is looked up as the key `"null"`. The read leaves the seeded database stored when storage was empty. |
| `Session.AdminListing` | database.ts:205-213 | The admin listing returns the rows of the loaded database and leaves it stored. On empty storage it is empty, because the seeded account is an administrator. |
| `Session.AdminLookup` | database.ts:215-223 | The admin lookup returns the lookup in the loaded database and leaves it stored. On empty storage only `admin_user_001` is found. |
| `Session.ReadsSettle` | database.ts:44-68 | After any read, a later read at any clock sees the same database and returns the same value, so the seeded administrator keeps the creation time of the first read. |
| `Session.WriteTouchesOnlyOwnProfile` | database.ts:109-120 | A profile write changes no other user's profile, no account and no session. |
| `Session.WriteWithoutSessionIsNoOp` | database.ts:110-114 | With no stored session, every profile write leaves storage unchanged. |
| `Session.LoginSessionMatchesCredentials` | auth.ts:25-54 | After a successful login the session is authenticated. It is admin exactly when the admin credentials were given. |
| `Session.LoginFailureKeepsSession` | auth.ts:25-54 | A login that returns false or throws leaves the stored session exactly as it was. |
| `Session.AdminLoginOnFreshStorage` | auth.ts:28-38 | On empty storage, the admin email in any letter case with `admin123` logs in the seeded `admin_user_001` as administrator. |
| `Session.AdminEmailWrongPasswordIsUser` | auth.ts:40-51 | The admin email with another password logs the admin account in with role user, which is not admin. |
| `Session.RegisterSuccess` | auth.ts:67-77 | A successful registration appends one role-user account with the given email and keeps the earlier accounts. The session then points at the new account and is not admin. |
| `Session.RegisterDuplicateFails` | auth.ts:59-65 | A taken email fails and keeps both the stored users and the session. |
| `Session.RegisterThenLogin` | auth.ts:40-51 | After registering, a login with the same email and a non-admin password reproduces the same session. |
| `Session.RegisterThenAddTool` | database.ts:172-175 | A tool added right after registering is the only tool the new account's profile shows. |
| `Session.UniqueEmailsPreserved` | auth.ts:56-78 | No two accounts share an email (ignoring case), and register, login, the profile writers and logout all keep it that way. |
| `Session.AdminLoginResolvesTheAdminAccount` | auth.ts:28-35 | With unique emails, an admin login always takes the id of the one account that carries the admin email. |
| `Routes.AdminGate` | components/AdminRoute.tsx:6-18 | No token redirects to login, a token without the admin role redirects to `/my-profile`, and only an authenticated admin passes. |
| `Routes.CatchAll` | App.tsx:48-52 | An unknown path goes to login without a token, and otherwise to the admin dashboard or `/my-profile` by role, judged on the session at `App`'s render. |
| `Routes.PublicPagesNeedNoSession` | App.tsx:24-25 | The login and register pages render under any session. |
| `Routes.IndexRedirects` | App.tsx:28-37 | `/admin` leads through the admin guard to the dashboard, and `/` leads through the private guard to `/my-profile`. |
| `Routes.AdminPagesOnlyForAdmins` | App.tsx:28-33 | Whatever the path, an admin page is rendered only for an authenticated administrator. |
| `Routes.DashboardAccess` | App.tsx:28-30 | The dashboard path sends a missing token to login (even with a cached admin role) and a non-admin to `/my-profile`, and renders for an admin. |
| `Routes.CatchAllTargetsAreRoutes` | App.tsx:48-52 | Whatever the current session, the target of the catch-all redirect is itself handled by a route of the table, so the catch-all never redirects into itself. |
| `Routes.CatchAllUsesSessionAtLoad` | App.tsx:28-52 | After a login without a reload, an unknown location still redirects to the login page, while the admin dashboard already renders for the new admin session. |
| `Routes.LocationOfOneSegment` | App.tsx:24-25 | The location `/x` resolves as the one-segment path `x`. |
| `Routes.LocationOfTwoSegments` | App.tsx:28-33 | The location `/x/y` resolves as the two-segment path `x/y`. |
| `Routes.DropTrailingEmpty` | App.tsx:22-53 | Only the run of empty pieces at the end is dropped. What is left is a prefix of the pieces and does not end in an empty piece. |
| `Routes.TrailingSlashIgnored` | App.tsx:24-46 | The location `/x/` resolves like `/x`. |
| `Routes.InnerDoubleSlashFallsThrough` | App.tsx:28-52 | The location `/x//y` keeps an empty middle segment and falls through to the catch-all, so `/admin//users` does not reach the user list. |
| `UserList.TotalYears` | pages/admin/UserListPage.tsx:27-33 | The summed absolute lengths of the experiences are never negative, and are zero for none. |
| `UserList.Summary` | pages/admin/UserListPage.tsx:39 | The summary is a prefix of at most 100 characters followed by `...`. Short texts get `...` too. |
| `UserList.ToCandidate` | pages/admin/UserListPage.tsx:26-43 | A candidate copies the user's id, name and email and the profile's tools. It carries the summary of the profile's summary. Its years are the floor of the summed experience lengths, so the years are a non-negative whole number within one below the total, and 0 without experiences. |
| `UserList.Candidates` | pages/admin/UserListPage.tsx:26-43 | There is one candidate per row, in row order, each the mapping of its row. |
| `UserList.FilteredCandidates` | pages/admin/UserListPage.tsx:52-68 | The two filter passes, with the range test as written, are one filter by both tests. The list keeps the candidates' order and every copy of each candidate that passes the search and the range test, and holds nothing else. |
| `UserList.FilteredCandidatesCorrected` | pages/admin/UserListPage.tsx:52-68 | The same list with the corrected range test, where an empty upper bound leaves the range open. |
| `UserList.NoFilterKeepsEveryone` | pages/admin/UserListPage.tsx:52-63 | An empty search with the option `all` shows every candidate, in order, as written and corrected. |
| `UserList.ShownAreUserAccounts` | pages/admin/UserListPage.tsx:24-68 | Every candidate the page shows carries the id, name and email of a role-user account of the store, whatever the search and the option. |
| `UserList.ClosedRange` | pages/admin/UserListPage.tsx:62-67 | The option `min-max` keeps exactly the candidates with min ≤ years ≤ max. |
| `UserList.ClosedRangeAsWritten` | pages/admin/UserListPage.tsx:64-66 | On a closed option `min-max` the page as written also keeps exactly min ≤ years ≤ max, so it agrees with the corrected filter there. |
| `UserList.OpenRangeKeepsAtLeast` | pages/admin/UserListPage.tsx:99-104 | Corrected filter: the option `min-` keeps exactly the candidates with at least min years. |
| `UserList.OpenRangeAsWritten` | pages/admin/UserListPage.tsx:64-66 | As written, the option `min-` keeps only candidates with min ≤ years ≤ 0. |
| `UserList.OpenRangeCounterexample` | pages/admin/UserListPage.tsx:64-66 | A candidate with 12 years fails `11-` as written and passes it corrected. |
| `UserList.ElevenPlusShowsNobody` | pages/admin/UserListPage.tsx:62-66 | As written, the option `11-` shows an empty list whatever the candidates and the search. |
| `UserList.CorrectedOpenRangeShowsAtLeast` | pages/admin/UserListPage.tsx:99-104 | Corrected, the option `min-` shows exactly the candidates that match the search and have at least min years. |
| `UserList.EveryRangeHasAnOption` | pages/admin/UserListPage.tsx:64-66 | Every closed range of whole years is selected exactly by the option made of its bounds' decimal forms, as written and corrected. |
| `Text.SplitJoin` | pages/admin/UserListPage.tsx:64 | Joining the pieces of a split with the separator gives back the original string. |
| `Text.ToNumber` | pages/admin/UserListPage.tsx:64 | `Number` is finite exactly on digit strings, non-negative there, and 0 on the empty string. |
| `Text.NatToDigits` | pages/admin/UserListPage.tsx:64 | Every natural number has a digit string that `Number` reads back as that number. |
| `Dashboard.ClassifyMatchesIntervals` | pages/admin/AdminDashboard.tsx:71-88 | A profile without experiences lands in "Sin experiencia". Otherwise it lands in exactly the bucket whose interval (≤2, (2,5], (5,10], >10) holds its total. |
| `Dashboard.ListFloorsChartTotal` | pages/admin/AdminDashboard.tsx:76-87 | A profile totalling two and a half years shows 2 years in the list, which the option `0-2` keeps. The chart counts the same profile in "3-5 años". |
| `Dashboard.ClassifyMonotone` | pages/admin/AdminDashboard.tsx:84-87 | More years never put a profile in a lower bucket. |
| `Dashboard.Bump` | pages/admin/AdminDashboard.tsx:73-87 | Incrementing a bucket adds one to it, leaves the others unchanged, and adds one to the total. |
| `Dashboard.Tally` | pages/admin/AdminDashboard.tsx:63-88 | The buckets together count every candidate once. |
| `Dashboard.TallyCounts` | pages/admin/AdminDashboard.tsx:71-88 | Each bucket counts exactly the candidates whose profile falls in it. |
| `Dashboard.AllToolNames` | pages/admin/AdminDashboard.tsx:91 | The flattened list has one name per tool of every profile. Each name occurs in it exactly as often as tools across the profiles carry it. |
| `Dashboard.ToolNamesCount` | pages/admin/AdminDashboard.tsx:91 | Within one profile, a name occurs among the tool names as often as tools carry it. |
| `Dashboard.Lookup` | pages/admin/AdminDashboard.tsx:93 | A missing key reads as 0. With distinct keys, a present key reads as its count. |
| `Dashboard.AddSkill` | pages/admin/AdminDashboard.tsx:92-95 | One reduce step adds one to the name's count and leaves every other count unchanged. Keys stay distinct, and a new name is appended at the end. |
| `Dashboard.CountSkills` | pages/admin/AdminDashboard.tsx:92-95 | Each distinct name becomes one key whose count is the number of times the name occurs. Keys are exactly the names that occur, and the counts sum to the number of tools. |
| `Dashboard.CountSkillsFirstAppearance` | pages/admin/AdminDashboard.tsx:92-97 | The keys are in order of each name's first appearance. |
| `Dashboard.CountSkillsPositive` | pages/admin/AdminDashboard.tsx:92-95 | Every key's count is its number of occurrences, so at least one. |
| `Dashboard.InsertByCount` | pages/admin/AdminDashboard.tsx:97-98 | Inserting into a list sorted highest-first keeps it sorted and adds exactly the one entry. |
| `Dashboard.SortByCount` | pages/admin/AdminDashboard.tsx:97-98 | The sort is a permutation of the entries, highest count first. |
| `Dashboard.SortIsStable` | pages/admin/AdminDashboard.tsx:97-98 | Entries with equal counts keep their original order. |
| `Dashboard.SortKeepsDistinct` | pages/admin/AdminDashboard.tsx:97-98 | Sorting distinct keys leaves them distinct. |
| `Dashboard.TopSkills` | pages/admin/AdminDashboard.tsx:97-100 | The result holds five entries, or all when there are fewer. They are taken from the counts (as a sub-multiset), highest first, with distinct names when the keys are distinct. No entry left out has a higher count than one kept. Among entries of equal count, the ones kept are the first in input order. |
| `Dashboard.TopSkillsOf` | pages/admin/AdminDashboard.tsx:90-100 | Each name is shown at most once, with its number of occurrences. A name not shown occurs no more often than any shown one. Among names of equal count, the ones shown come first in key order. |
| `Dashboard.TopSkillsSize` | pages/admin/AdminDashboard.tsx:97-100 | Five skills are shown unless fewer distinct tool names exist. |
| `Dashboard.TopSkillLabel` | pages/admin/AdminDashboard.tsx:125 | The card shows the top skill's name, or `N/A` when there is none or the name is empty. |
| `Dashboard.FetchStats` | pages/admin/AdminDashboard.tsx:55-104 | The total is the number of candidates. The buckets sum to it, and each counts its own candidates. The skills are the top skills of all tool names, each shown with the number of tools across the profiles that carry its name. |

## Left out

- The persistence itself is not modelled. JSON serialisation, a failing `writeDb`, and a stored value of the wrong shape are outside the model. A stored key is either a well-formed value or absent (`None`), and `None` covers both absent and unparseable.
- Asynchrony and concurrency are not modelled. Each operation is one atomic step on the two stored keys, and two tabs writing at once are outside the model.
- The clock, `Date.now()` and `new Date()` are not modelled. They become the `now` and `millis` parameters and the ids passed in the add edits. Nothing forces those ids to be fresh.
- The logout navigation (setting the location hash and reloading) is not modelled. Only the removal of the session key is.
- `PrivateRoute`'s code is not part of this model. The routes under it are wrapped in `Private` and its behaviour is not stated.
- Rendering is not modelled. This covers the React components, loading states, the bar widths and `maxValue` of `BarChart`, and its re-sorting of the buckets.
- The date arithmetic of both admin pages (parsing the ISO dates and dividing milliseconds by 365.25 days) is not modelled. It is the `Span` parameter, and the model assumes every date parses. In the source an empty or malformed start or end date makes `getTime()` NaN and the whole total NaN. The list then shows "NaN años" and every range option hides that candidate. The dashboard counts such a profile in "10+ años", because every `<=` test fails. Floating-point rounding in the sum is not modelled either, since sums are exact reals.
- `Text.Lower`: only ASCII letters are lower-cased. JavaScript's `toLowerCase` also maps non-ASCII letters, and that mapping is not modelled.
- `Text.ToNumber`: only digit strings and the empty string are read as numbers. Every other string is NaN. JavaScript's `Number` also accepts surrounding whitespace, signs, decimals, exponents, hex and `Infinity`, which the filter options never contain.
- The model works on Dafny characters, not UTF-16 code units. `substring(0, 100)` on text outside the basic plane is not modelled.
- `Dashboard.CountSkillsFirstAppearance`: the keys are kept in insertion order. `Object.entries` lists integer-like keys (a tool named `"42"`) first in numeric order, and that ordering is not modelled. The tie order of `Dashboard.TopSkillsOf` inherits this.
- `Dashboard.CountSkills`: tool names that collide with inherited object properties (`"constructor"`, `"__proto__"`) are not modelled.
- `Routes.Resolve` gives letter-case-insensitive matching only for ASCII letters, through `Lower`. Percent-encoding and the router's ranking of routes are not modelled. The router library's source is not part of this model: `Routes.Segments` follows its pattern form, where each route ends in an optional run of slashes and no other slash is collapsed. No two routes of the table match the same path, so the order of the tests in `Resolve` does not matter.
- The remaining source files (`supabase.ts`, `firebase.ts`, `debug-supabase.ts`, `pages/admin/UserProfileView.tsx`) are outside the modelled core. The pages that call the writers and the readers are not part of this model either.

## Findings

| source | as written | input that shows it | evidently intended | confidence | as-written member | corrected member |
|---|---|---|---|---|---|---|
| pages/admin/UserListPage.tsx:64-66 | `"11-".split('-')` is `["11", ""]` and `Number("")` is 0, not NaN. The upper bound is therefore 0 and the filter is `years >= 11 && years <= 0`. | A candidate with 12 years of experience and the option `11-` ("10+ años"): no candidate is ever shown. | An empty upper piece leaves the range open, so the filter keeps every candidate with at least 11 years. | high; not executed | `UserList.OpenRangeAsWritten`, `UserList.ElevenPlusShowsNobody` | `UserList.FilteredCandidatesCorrected`, `UserList.CorrectedOpenRangeShowsAtLeast` |

=== FILE: basics.dfy ===
/** Small sequence vocabulary shared by the whole model: an optional value,
    the order-preserving filter that `Array.prototype.filter` performs, the
    first-match search that `Array.prototype.find` performs, and the
    subsequence relation that filters establish. */
module Basics {

  /** `undefined` / `null` versus a present value. */
  datatype Option<+T> = None | Some(value: T)

  /** The elements of `xs` that satisfy `keep`, in their original order. */
  function Keep<T(!new)>(xs: seq<T>, keep: T -> bool): (r: seq<T>)
    ensures |r| <= |xs|
    ensures forall x :: x in r <==> x in xs && keep(x)
    decreases |xs|
  {
    if |xs| == 0 then []
    else if keep(xs[0]) then [xs[0]] + Keep(xs[1..], keep)
    else Keep(xs[1..], keep)
  }

  /** `a` can be obtained from `b` by deleting elements (greedy matching). */
  predicate IsSubsequence<T(==)>(a: seq<T>, b: seq<T>)
    decreases |b|
  {
    |a| == 0 ||
    (|b| > 0 &&
     if a[0] == b[0] then IsSubsequence(a[1..], b[1..]) else IsSubsequence(a, b[1..]))
  }

  /** A filter never reorders: its result is a subsequence of its input. */
  lemma {:induction false} KeepIsSubsequence<T(!new)>(xs: seq<T>, keep: T -> bool)
    ensures IsSubsequence(Keep(xs, keep), xs)
    decreases |xs|
  {
    if |xs| > 0 {
      var rest := Keep(xs[1..], keep);
      KeepIsSubsequence(xs[1..], keep);
      if !keep(xs[0]) && |rest| > 0 {
        assert rest[0] in rest;
        assert rest[0] != xs[0];
      }
    }
  }

  /** Two filters in a row are one filter by the conjunction of their predicates. */
  lemma {:induction false} KeepKeep<T(!new)>(xs: seq<T>, p: T -> bool, q: T -> bool, both: T -> bool)
    requires forall x :: both(x) == (p(x) && q(x))
    ensures Keep(Keep(xs, p), q) == Keep(xs, both)
    decreases |xs|
  {
    if |xs| > 0 {
      KeepKeep(xs[1..], p, q, both);
      if p(xs[0]) {
        var rest := Keep(xs[1..], p);
        assert Keep(xs, p) == [xs[0]] + rest;
        assert ([xs[0]] + rest)[1..] == rest;
      }
    }
  }

  /** A filter whose predicate holds of every element changes nothing. */
  lemma {:induction false} KeepEverything<T(!new)>(xs: seq<T>, keep: T -> bool)
    requires forall i :: 0 <= i < |xs| ==> keep(xs[i])
    ensures Keep(xs, keep) == xs
    decreases |xs|
  {
    if |xs| > 0 {
      KeepEverything(xs[1..], keep);
    }
  }

  /** Filtering twice with the same predicate is filtering once. */
  lemma {:induction false} KeepIdempotent<T(!new)>(xs: seq<T>, keep: T -> bool)
    ensures Keep(Keep(xs, keep), keep) == Keep(xs, keep)
  {
    var r := Keep(xs, keep);
    forall i | 0 <= i < |r| ensures keep(r[i]) {
      assert r[i] in r;
    }
    KeepEverything(r, keep);
  }

  /** A filter keeps every copy of the elements it accepts and no copy of
      the others. */
  lemma {:induction false} KeepMultiset<T(!new)>(xs: seq<T>, keep: T -> bool, x: T)
    ensures multiset(Keep(xs, keep))[x] == if keep(x) then multiset(xs)[x] else 0
    decreases |xs|
  {
    if |xs| > 0 {
      KeepMultiset(xs[1..], keep, x);
      assert xs == [xs[0]] + xs[1..];
    }
  }

  /** A filter and its complement split the input between them. */
  lemma {:induction false} KeepComplement<T(!new)>(xs: seq<T>, keep: T -> bool, drop: T -> bool)
    requires forall x :: drop(x) == !keep(x)
    ensures |Keep(xs, keep)| + |Keep(xs, drop)| == |xs|
    decreases |xs|
  {
    if |xs| > 0 {
      KeepComplement(xs[1..], keep, drop);
    }
  }

  /** Filtering a concatenation filters each part. */
  lemma {:induction false} KeepAppend<T(!new)>(xs: seq<T>, ys: seq<T>, keep: T -> bool)
    ensures Keep(xs + ys, keep) == Keep(xs, keep) + Keep(ys, keep)
    decreases |xs|
  {
    if |xs| > 0 {
      var h, t := xs[0], xs[1..];
      assert xs == [h] + t;
      assert xs + ys == [h] + (t + ys);
      KeepAppend(t, ys, keep);
      KeepCons(h, t + ys, keep);
      KeepCons(h, t, keep);
      if keep(h) {
        var a, b := Keep(t, keep), Keep(ys, keep);
        assert [h] + (a + b) == ([h] + a) + b;
      }
    } else {
      assert xs + ys == ys;
    }
  }

  /** What `Keep` takes from a prefix is a prefix of what it takes from the whole. */
  lemma KeepOfPrefix<T(!new)>(s: seq<T>, m: nat, keep: T -> bool)
    requires m <= |s|
    ensures Keep(s[..m], keep) <= Keep(s, keep)
  {
    assert s == s[..m] + s[m..];
    KeepAppend(s[..m], s[m..], keep);
  }

  /** `Keep` on a list with a known first element. */
  lemma KeepCons<T(!new)>(x: T, xs: seq<T>, keep: T -> bool)
    ensures Keep([x] + xs, keep) == if keep(x) then [x] + Keep(xs, keep) else Keep(xs, keep)
  {
    assert ([x] + xs)[0] == x && ([x] + xs)[1..] == xs;
  }

  /** The index of the first element satisfying `p`, or `None` iff there is none. */
  function FindFirst<T>(xs: seq<T>, p: T -> bool): (r: Option<nat>)
    ensures r.Some? ==> r.value < |xs| && p(xs[r.value])
    ensures r.Some? ==> forall j :: 0 <= j < r.value ==> !p(xs[j])
    ensures r.None? <==> forall j :: 0 <= j < |xs| ==> !p(xs[j])
    decreases |xs|
  {
    if |xs| == 0 then None
    else if p(xs[0]) then Some(0)
    else match FindFirst(xs[1..], p)
      case None => None
      case Some(i) => Some(i + 1)
  }

  /** Number of occurrences of `x` in `xs`. */
  function Occurrences<T(==)>(xs: seq<T>, x: T): (n: nat)
    ensures n == multiset(xs)[x]
    decreases |xs|
  {
    if |xs| == 0 then 0
    else
      assert xs == [xs[0]] + xs[1..];
      (if xs[0] == x then 1 else 0) + Occurrences(xs[1..], x)
  }

  function Min(a: int, b: int): int {
    if a <= b then a else b
  }
}

=== FILE: dashboard.dfy ===
/** The statistics of `pages/admin/AdminDashboard.tsx`: the number of
    candidates, how their total years of experience fall into five buckets,
    and the five tool names with the most entries across all profiles. */
module Dashboard {
  import opened Basics
  import opened Entities
  import opened Store
  import opened UserList

  /** The five bars of the experience chart, in the order the page declares
      them: "Sin experiencia", "0-2 años", "3-5 años", "6-10 años", "10+ años". */
  datatype Bucket = NoExperience | UpToTwo | ThreeToFive | SixToTen | OverTen

  /** The bucket of one profile: no experiences at all, otherwise by the
      unrounded total of years against the thresholds 2, 5 and 10. */
  function Classify(p: Profile, span: Span): Bucket {
    if |p.experiences| == 0 then NoExperience
    else
      var t := TotalYears(p.experiences, span);
      if t <= 2.0 then UpToTwo
      else if t <= 5.0 then ThreeToFive
      else if t <= 10.0 then SixToTen
      else OverTen
  }

  /** The position of a bucket on the chart, from least to most experience. */
  function Rank(b: Bucket): nat {
    match b
    case NoExperience => 0
    case UpToTwo => 1
    case ThreeToFive => 2
    case SixToTen => 3
    case OverTen => 4
  }

  /** The interval of totals each bucket of a profile with experiences stands
      for, as the chart labels read: `(lo, hi]`, with no upper end for the
      last one. */
  predicate Covers(b: Bucket, t: real) {
    match b
    case NoExperience => false
    case UpToTwo => t <= 2.0
    case ThreeToFive => 2.0 < t <= 5.0
    case SixToTen => 5.0 < t <= 10.0
    case OverTen => 10.0 < t
  }

  /** A profile with experiences lands in exactly the bucket whose interval
      holds its total, and a profile without any lands in `NoExperience`. */
  lemma ClassifyMatchesIntervals(p: Profile, span: Span, b: Bucket)
    ensures |p.experiences| == 0 ==> (Classify(p, span) == b <==> b == NoExperience)
    ensures |p.experiences| > 0 ==> (Classify(p, span) == b <==> Covers(b, TotalYears(p.experiences, span)))
  {
  }

  /** The two admin pages read the same total differently: the list floors
      it, the chart does not. A profile of two and a half years shows as 2
      years in the list, which the option `"0-2"` keeps, and is counted in the
      chart's "3-5 años" bar. */
  lemma ListFloorsChartTotal(row: Entry, span: Span)
    requires |row.profile.experiences| > 0 && TotalYears(row.profile.experiences, span) == 2.5
    ensures ToCandidate(row, span).experienceYears == 2
    ensures MatchesExperience(2, "0-2") && MatchesExperienceAsWritten(2, "0-2")
    ensures Classify(row.profile, span) == ThreeToFive
  {
    assert ToCandidate(row, span).experienceYears == 2;
    TwoYearsInZeroToTwo();
  }

  /** More years never move a profile to a lower bar. */
  lemma ClassifyMonotone(p: Profile, q: Profile, span: Span)
    requires |p.experiences| > 0 && |q.experiences| > 0
    requires TotalYears(p.experiences, span) <= TotalYears(q.experiences, span)
    ensures Rank(Classify(p, span)) <= Rank(Classify(q, span))
  {
  }

  /** The `experienceDistribution` record: one counter per bucket. */
  datatype Distribution = Distribution(
    noExperience: nat, upToTwo: nat, threeToFive: nat, sixToTen: nat, overTen: nat)

  const NoCounts := Distribution(0, 0, 0, 0, 0)

  function Count(d: Distribution, b: Bucket): nat {
    match b
    case NoExperience => d.noExperience
    case UpToTwo => d.upToTwo
    case ThreeToFive => d.threeToFive
    case SixToTen => d.sixToTen
    case OverTen => d.overTen
  }

  function Total(d: Distribution): nat {
    d.noExperience + d.upToTwo + d.threeToFive + d.sixToTen + d.overTen
  }

  /** `experienceDistribution[label]++`: one more in `b`, the same elsewhere. */
  function Bump(d: Distribution, b: Bucket): (r: Distribution)
    ensures Count(r, b) == Count(d, b) + 1
    ensures forall c :: c != b ==> Count(r, c) == Count(d, c)
    ensures Total(r) == Total(d) + 1
  {
    match b
    case NoExperience => d.(noExperience := d.noExperience + 1)
    case UpToTwo => d.(upToTwo := d.upToTwo + 1)
    case ThreeToFive => d.(threeToFive := d.threeToFive + 1)
    case SixToTen => d.(sixToTen := d.sixToTen + 1)
    case OverTen => d.(overTen := d.overTen + 1)
  }

  /** The `forEach` over the rows: every row adds one to its profile's bucket. */
  function Tally(rows: seq<Entry>, span: Span): (d: Distribution)
    ensures Total(d) == |rows|
    decreases |rows|
  {
    if |rows| == 0 then NoCounts
    else Bump(Tally(rows[1..], span), Classify(rows[0].profile, span))
  }

  function InBucket(b: Bucket, span: Span): Entry -> bool {
    (row: Entry) => Classify(row.profile, span) == b
  }

  /** Each bar counts exactly the rows whose profile falls in its bucket. */
  lemma {:induction false} TallyCounts(rows: seq<Entry>, span: Span, b: Bucket)
    ensures Count(Tally(rows, span), b) == |Keep(rows, InBucket(b, span))|
    decreases |rows|
  {
    if |rows| > 0 {
      TallyCounts(rows[1..], span, b);
      assert rows == [rows[0]] + rows[1..];
      KeepCons(rows[0], rows[1..], InBucket(b, span));
      assert Tally(rows, span) == Bump(Tally(rows[1..], span), Classify(rows[0].profile, span));
    }
  }

  /** The names of one profile's tools, in order. */
  function ToolNames(tools: seq<Item<Tool>>): (names: seq<string>)
    ensures |names| == |tools|
    ensures forall j :: 0 <= j < |tools| ==> names[j] == tools[j].body.name
  {
    seq(|tools|, j requires 0 <= j < |tools| => tools[j].body.name)
  }

  function ToolNamed(n: string): Item<Tool> -> bool {
    (t: Item<Tool>) => t.body.name == n
  }

  /** A name occurs among a profile's tool names as often as tools carry it. */
  lemma {:induction false} ToolNamesCount(tools: seq<Item<Tool>>, n: string)
    ensures Occurrences(ToolNames(tools), n) == |Keep(tools, ToolNamed(n))|
    decreases |tools|
  {
    if |tools| > 0 {
      ToolNamesCount(tools[1..], n);
      assert ToolNames(tools)[1..] == ToolNames(tools[1..]);
    }
  }

  /** How many tools all the rows' profiles hold together. */
  function ToolTotal(rows: seq<Entry>): nat
    decreases |rows|
  {
    if |rows| == 0 then 0 else |rows[0].profile.tools| + ToolTotal(rows[1..])
  }

  /** How many tools, across all the rows' profiles, carry the name `n`. */
  function ToolsNamed(rows: seq<Entry>, n: string): nat
    decreases |rows|
  {
    if |rows| == 0 then 0 else |Keep(rows[0].profile.tools, ToolNamed(n))| + ToolsNamed(rows[1..], n)
  }

  /** `flatMap(u => u.profile.tools)`, keeping only each tool's name, which
      is all the counting looks at: one name per tool of every profile, row
      after row, so each name occurs as often as tools carry it. */
  function AllToolNames(rows: seq<Entry>): (names: seq<string>)
    ensures |names| == ToolTotal(rows)
    ensures forall n :: Occurrences(names, n) == ToolsNamed(rows, n)
    decreases |rows|
  {
    if |rows| == 0 then []
    else
      var here := ToolNames(rows[0].profile.tools);
      var rest := AllToolNames(rows[1..]);
      assert forall n :: Occurrences(here + rest, n) == ToolsNamed(rows, n) by {
        forall n ensures Occurrences(here + rest, n) == ToolsNamed(rows, n) {
          ToolNamesCount(rows[0].profile.tools, n);
          assert multiset(here + rest) == multiset(here) + multiset(rest);
        }
      }
      here + rest
  }

  /** One key of the `skillCounts` record, in its insertion position. */
  datatype SkillCount = SkillCount(name: string, count: nat)

  /** The keys of the record, in order. */
  function Names(entries: seq<SkillCount>): (ns: seq<string>)
    ensures |ns| == |entries|
    ensures forall i :: 0 <= i < |entries| ==> ns[i] == entries[i].name
  {
    seq(|entries|, i requires 0 <= i < |entries| => entries[i].name)
  }

  /** No name is a key twice. */
  predicate DistinctNames(entries: seq<SkillCount>) {
    forall i, j :: 0 <= i < j < |entries| ==> entries[i].name != entries[j].name
  }

  function NameIs(n: string): SkillCount -> bool {
    (e: SkillCount) => e.name == n
  }

  /** `acc[n] || 0`: the count stored under `n`, or 0 when there is none. */
  function Lookup(entries: seq<SkillCount>, n: string): (c: nat)
    ensures n !in Names(entries) ==> c == 0
    ensures DistinctNames(entries) ==>
      forall i :: 0 <= i < |entries| && entries[i].name == n ==> c == entries[i].count
  {
    match FindFirst(entries, NameIs(n))
    case None => 0
    case Some(i) =>
      assert Names(entries)[i] == n;
      entries[i].count
  }

  /** A new key appended at the end is read back with its own count and
      leaves every other key's count alone. */
  lemma LookupAppend(acc: seq<SkillCount>, x: SkillCount, n: string)
    requires DistinctNames(acc) && x.name !in Names(acc)
    ensures DistinctNames(acc + [x])
    ensures Names(acc + [x]) == Names(acc) + [x.name]
    ensures Lookup(acc + [x], n) == if n == x.name then x.count else Lookup(acc, n)
  {
    var r := acc + [x];
    assert forall i :: 0 <= i < |acc| ==> acc[i].name == Names(acc)[i];
    assert Names(r) == Names(acc) + [x.name];
    if n == x.name {
      assert r[|acc|] == x;
    } else if n in Names(acc) {
      var i :| 0 <= i < |acc| && Names(acc)[i] == n;
      assert r[i] == acc[i];
    }
  }

  /** Overwriting the entry of an existing key changes that key's count only. */
  lemma LookupUpdate(acc: seq<SkillCount>, k: nat, e: SkillCount, n: string)
    requires DistinctNames(acc) && k < |acc| && e.name == acc[k].name
    ensures DistinctNames(acc[k := e])
    ensures Names(acc[k := e]) == Names(acc)
    ensures Lookup(acc[k := e], n) == if n == e.name then e.count else Lookup(acc, n)
  {
    var r := acc[k := e];
    assert Names(r) == Names(acc);
    if n == e.name {
      assert r[k] == e;
    } else if n in Names(acc) {
      var i :| 0 <= i < |acc| && Names(acc)[i] == n;
      assert r[i] == acc[i];
    }
  }

  function SumCounts(entries: seq<SkillCount>): nat
    decreases |entries|
  {
    if |entries| == 0 then 0 else SumCounts(entries[..|entries| - 1]) + entries[|entries| - 1].count
  }

  lemma {:induction false} SumCountsAppend(entries: seq<SkillCount>, e: SkillCount)
    ensures SumCounts(entries + [e]) == SumCounts(entries) + e.count
  {
    assert (entries + [e])[..|entries|] == entries;
  }

  /** Raising the count at one position raises the sum by as much. */
  lemma {:induction false} SumCountsUpdate(entries: seq<SkillCount>, i: nat, e: SkillCount)
    requires i < |entries| && e.count >= entries[i].count
    ensures SumCounts(entries[i := e]) == SumCounts(entries) + (e.count - entries[i].count)
    decreases |entries|
  {
    var last := |entries| - 1;
    assert entries[i := e][..last] == if i == last then entries[..last] else entries[..last][i := e];
    if i < last {
      SumCountsUpdate(entries[..last], i, e);
    }
  }

  /** One step of the `reduce`: the counter for `name` goes up by one; a new
      key is appended the first time a name is seen, and every other key
      keeps its place and its count. */
  function AddSkill(acc: seq<SkillCount>, name: string): (r: seq<SkillCount>)
    requires DistinctNames(acc)
    ensures DistinctNames(r)
    ensures name in Names(acc) ==> Names(r) == Names(acc)
    ensures name !in Names(acc) ==> Names(r) == Names(acc) + [name]
    ensures forall n :: Lookup(r, n) == Lookup(acc, n) + (if n == name then 1 else 0)
    ensures SumCounts(r) == SumCounts(acc) + 1
  {
    match FindFirst(acc, NameIs(name))
    case None =>
      var x := SkillCount(name, 1);
      SumCountsAppend(acc, x);
      LookupAppend(acc, x, name);
      assert forall n :: Lookup(acc + [x], n) == Lookup(acc, n) + (if n == name then 1 else 0) by {
        forall n ensures Lookup(acc + [x], n) == Lookup(acc, n) + (if n == name then 1 else 0) {
          LookupAppend(acc, x, n);
        }
      }
      acc + [x]
    case Some(k) =>
      var e := SkillCount(name, acc[k].count + 1);
      SumCountsUpdate(acc, k, e);
      LookupUpdate(acc, k, e, name);
      assert forall n :: Lookup(acc[k := e], n) == Lookup(acc, n) + (if n == name then 1 else 0) by {
        forall n ensures Lookup(acc[k := e], n) == Lookup(acc, n) + (if n == name then 1 else 0) {
          LookupUpdate(acc, k, e, n);
        }
      }
      assert name in Names(acc) by { assert Names(acc)[k] == name; }
      acc[k := e]
  }

  /** `allSkills.reduce(...)`, from the first tool to the last: one key per
      distinct name, holding the number of times the name occurs. */
  function CountSkills(names: seq<string>): (r: seq<SkillCount>)
    ensures DistinctNames(r)
    ensures forall n :: Lookup(r, n) == Occurrences(names, n)
    ensures forall n :: n in Names(r) <==> n in names
    ensures SumCounts(r) == |names|
    decreases |names|
  {
    if |names| == 0 then []
    else
      var init := names[..|names| - 1];
      var last := names[|names| - 1];
      var acc := CountSkills(init);
      assert names == init + [last];
      assert forall n :: Occurrences(names, n) == Occurrences(init, n) + (if n == last then 1 else 0) by {
        assert multiset(names) == multiset(init) + multiset{last};
      }
      AddSkill(acc, last)
  }

  /** The keys appear in the record in the order their names first appear
      among the tools. */
  lemma {:induction false} CountSkillsFirstAppearance(names: seq<string>)
    ensures Names(CountSkills(names)) == Dedup(names)
    decreases |names|
  {
    if |names| > 0 {
      var init := names[..|names| - 1];
      var last := names[|names| - 1];
      assert names == init + [last];
      CountSkillsSnoc(init, last);
      CountSkillsFirstAppearance(init);
      DedupSnoc(init, last);
      assert last in Names(CountSkills(init)) <==> last in init;
    }
  }

  /** One more name is one more step of the `reduce`. */
  lemma CountSkillsSnoc(init: seq<string>, last: string)
    ensures CountSkills(init + [last]) == AddSkill(CountSkills(init), last)
  {
    assert (init + [last])[..|init|] == init;
  }

  /** The names of a list, each once, in order of first appearance. */
  function Dedup(xs: seq<string>): (r: seq<string>)
    ensures forall x :: x in r <==> x in xs
    decreases |xs|
  {
    if |xs| == 0 then []
    else
      var init := Dedup(xs[..|xs| - 1]);
      var last := xs[|xs| - 1];
      assert xs == xs[..|xs| - 1] + [last];
      if last in init then init else init + [last]
  }

  lemma DedupSnoc(xs: seq<string>, x: string)
    ensures Dedup(xs + [x]) == if x in xs then Dedup(xs) else Dedup(xs) + [x]
  {
    assert (xs + [x])[..|xs|] == xs;
  }

  /** Every key's count is the number of times its name occurs, so at least one. */
  lemma CountSkillsPositive(names: seq<string>, i: nat)
    requires i < |CountSkills(names)|
    ensures CountSkills(names)[i].count == Occurrences(names, CountSkills(names)[i].name) >= 1
  {
    var r := CountSkills(names);
    var n := r[i].name;
    assert Names(r)[i] == n;
    assert n in names;
    assert Lookup(r, n) == r[i].count;
    assert Occurrences(names, n) == multiset(names)[n] >= 1;
  }

  /** Sorted by count, highest first. */
  predicate NonIncreasing(s: seq<SkillCount>) {
    forall i, j :: 0 <= i < j < |s| ==> s[i].count >= s[j].count
  }

  /** One step of the stable descending sort: `x` goes before the first entry
      whose count is not above its own, so it stays ahead of the entries it
      ties with. */
  function InsertByCount(x: SkillCount, sorted: seq<SkillCount>): (r: seq<SkillCount>)
    requires NonIncreasing(sorted)
    ensures NonIncreasing(r)
    ensures multiset(r) == multiset(sorted) + multiset{x}
    ensures |r| == |sorted| + 1
    decreases |sorted|
  {
    if |sorted| == 0 || sorted[0].count <= x.count then [x] + sorted
    else
      var rest := InsertByCount(x, sorted[1..]);
      assert sorted == [sorted[0]] + sorted[1..];
      HeadBoundsRest(sorted[0], sorted[1..], x, rest);
      [sorted[0]] + rest
  }

  /** An entry that heads a sorted list still heads it after a lower entry
      is inserted into the tail. */
  lemma HeadBoundsRest(h: SkillCount, tail: seq<SkillCount>, x: SkillCount, rest: seq<SkillCount>)
    requires NonIncreasing([h] + tail) && x.count < h.count
    requires NonIncreasing(rest) && multiset(rest) == multiset(tail) + multiset{x}
    ensures NonIncreasing([h] + rest)
  {
    forall k | 0 <= k < |rest|
      ensures rest[k].count <= h.count
    {
      assert rest[k] in multiset(rest);
      if rest[k] != x {
        assert rest[k] in multiset(tail);
        var j :| 0 <= j < |tail| && tail[j] == rest[k];
        assert ([h] + tail)[0] == h && ([h] + tail)[j + 1] == tail[j];
      }
    }
    var r := [h] + rest;
    forall i, j | 0 <= i < j < |r|
      ensures r[i].count >= r[j].count
    {
      if i > 0 {
        assert r[i] == rest[i - 1] && r[j] == rest[j - 1];
      } else {
        assert r[j] == rest[j - 1];
      }
    }
  }

  /** `sort(([, a], [, b]) => b - a)` on the entries: the same entries,
      highest count first. */
  function SortByCount(entries: seq<SkillCount>): (r: seq<SkillCount>)
    ensures NonIncreasing(r)
    ensures multiset(r) == multiset(entries)
    ensures |r| == |entries|
    decreases |entries|
  {
    if |entries| == 0 then []
    else
      assert entries == [entries[0]] + entries[1..];
      InsertByCount(entries[0], SortByCount(entries[1..]))
  }

  function HasCount(c: nat): SkillCount -> bool {
    (e: SkillCount) => e.count == c
  }

  /** The inserted entry lands ahead of every entry it ties with, and the
      ties among the others keep their order. */
  lemma {:induction false} InsertKeepsTies(x: SkillCount, sorted: seq<SkillCount>, c: nat)
    requires NonIncreasing(sorted)
    ensures Keep(InsertByCount(x, sorted), HasCount(c)) ==
      if x.count == c then [x] + Keep(sorted, HasCount(c)) else Keep(sorted, HasCount(c))
    decreases |sorted|
  {
    if |sorted| == 0 || sorted[0].count <= x.count {
      assert ([x] + sorted)[1..] == sorted;
    } else {
      var rest := InsertByCount(x, sorted[1..]);
      InsertKeepsTies(x, sorted[1..], c);
      assert ([sorted[0]] + rest)[1..] == rest;
    }
  }

  /** The sort is stable: the entries of any one count come out in the
      order they went in, so among equal counts the key inserted first
      (the name seen first) ranks first. */
  lemma {:induction false} SortIsStable(entries: seq<SkillCount>, c: nat)
    ensures Keep(SortByCount(entries), HasCount(c)) == Keep(entries, HasCount(c))
    decreases |entries|
  {
    if |entries| > 0 {
      SortIsStable(entries[1..], c);
      InsertKeepsTies(entries[0], SortByCount(entries[1..]), c);
    }
  }

  /** Putting an entry with a new name in front keeps the names distinct. */
  lemma ConsKeepsDistinct(y: SkillCount, s: seq<SkillCount>)
    requires DistinctNames(s) && y.name !in Names(s)
    ensures DistinctNames([y] + s)
  {
    var r := [y] + s;
    forall i, j | 0 <= i < j < |r| ensures r[i].name != r[j].name {
      assert r[j] == s[j - 1] && Names(s)[j - 1] == r[j].name;
      if i > 0 {
        assert r[i] == s[i - 1];
      }
    }
  }

  /** Inserting an entry with a new name keeps the names distinct. */
  lemma {:induction false} InsertKeepsDistinct(x: SkillCount, sorted: seq<SkillCount>)
    requires NonIncreasing(sorted) && DistinctNames(sorted) && x.name !in Names(sorted)
    ensures DistinctNames(InsertByCount(x, sorted))
    decreases |sorted|
  {
    if |sorted| == 0 || sorted[0].count <= x.count {
      ConsKeepsDistinct(x, sorted);
    } else {
      var tail := sorted[1..];
      assert Names(sorted)[1..] == Names(tail);
      InsertKeepsDistinct(x, tail);
      var rest := InsertByCount(x, tail);
      forall k | 0 <= k < |rest| ensures Names(rest)[k] != sorted[0].name {
        assert rest[k] in multiset(tail) + multiset{x};
        if rest[k] != x {
          var i :| 0 <= i < |tail| && tail[i] == rest[k];
          assert sorted[i + 1] == tail[i];
        } else {
          assert Names(sorted)[0] == sorted[0].name;
        }
      }
      ConsKeepsDistinct(sorted[0], rest);
    }
  }

  /** Sorting keeps the names distinct. */
  lemma {:induction false} SortKeepsDistinct(entries: seq<SkillCount>)
    requires DistinctNames(entries)
    ensures DistinctNames(SortByCount(entries))
    decreases |entries|
  {
    if |entries| > 0 {
      var tail := entries[1..];
      SortKeepsDistinct(tail);
      var sorted := SortByCount(tail);
      forall k | 0 <= k < |sorted| ensures Names(sorted)[k] != entries[0].name {
        assert sorted[k] in multiset(tail);
        var m :| 0 <= m < |tail| && tail[m] == sorted[k];
        assert entries[m + 1] == tail[m];
      }
      InsertKeepsDistinct(entries[0], sorted);
    }
  }

  const TopCount := 5

  /** `slice(0, 5)` of the sorted entries: at most five of the given entries,
      highest first, with distinct names when the keys are distinct. No
      entry left out has a higher count than one kept, and among the entries
      of any one count the kept ones are the first in the input order. */
  function TopSkills(counts: seq<SkillCount>): (r: seq<SkillCount>)
    ensures |r| == Min(|counts|, TopCount)
    ensures NonIncreasing(r)
    ensures multiset(r) <= multiset(counts)
    ensures DistinctNames(counts) ==> DistinctNames(r)
    ensures forall e, k :: e in counts && e !in r && 0 <= k < |r| ==> e.count <= r[k].count
    ensures forall c: nat :: Keep(r, HasCount(c)) <= Keep(counts, HasCount(c))
  {
    var m := Min(|counts|, TopCount);
    CutIsSubMultiset(counts, m);
    CutKeepsDistinct(counts, m);
    CutLeavesNoHigher(counts, m);
    CutKeepsFirstTies(counts, m);
    SortByCount(counts)[..m]
  }

  lemma CutIsSubMultiset(counts: seq<SkillCount>, m: nat)
    requires m <= |counts|
    ensures multiset(SortByCount(counts)[..m]) <= multiset(counts)
  {
    PrefixSubMultiset(SortByCount(counts), m);
  }

  lemma PrefixSubMultiset<T>(s: seq<T>, m: nat)
    requires m <= |s|
    ensures multiset(s[..m]) <= multiset(s)
  {
    assert s == s[..m] + s[m..];
  }

  lemma CutKeepsDistinct(counts: seq<SkillCount>, m: nat)
    requires m <= |counts|
    ensures DistinctNames(counts) ==> DistinctNames(SortByCount(counts)[..m])
  {
    if DistinctNames(counts) {
      SortKeepsDistinct(counts);
    }
  }

  lemma CutLeavesNoHigher(counts: seq<SkillCount>, m: nat)
    requires m <= |counts|
    ensures var r := SortByCount(counts)[..m];
      forall e, k :: e in counts && e !in r && 0 <= k < |r| ==> e.count <= r[k].count
  {
    var sorted := SortByCount(counts);
    var r := sorted[..m];
    forall e, k | e in counts && e !in r && 0 <= k < |r| ensures e.count <= r[k].count {
      assert e in multiset(sorted);
      PastPrefixNoHigher(sorted, m, e, k);
    }
  }

  /** In a list sorted highest first, an entry beyond the first `m` counts no
      more than any of them. */
  lemma PastPrefixNoHigher(sorted: seq<SkillCount>, m: nat, e: SkillCount, k: nat)
    requires NonIncreasing(sorted) && m <= |sorted| && k < m
    requires e in sorted && e !in sorted[..m]
    ensures e.count <= sorted[k].count
  {
    var j :| 0 <= j < |sorted| && sorted[j] == e;
    assert j >= m;
  }

  lemma CutKeepsFirstTies(counts: seq<SkillCount>, m: nat)
    requires m <= |counts|
    ensures forall c: nat :: Keep(SortByCount(counts)[..m], HasCount(c)) <= Keep(counts, HasCount(c))
  {
    forall c: nat ensures Keep(SortByCount(counts)[..m], HasCount(c)) <= Keep(counts, HasCount(c)) {
      CutKeepsFirstTiesOf(counts, m, c);
    }
  }

  lemma CutKeepsFirstTiesOf(counts: seq<SkillCount>, m: nat, c: nat)
    requires m <= |counts|
    ensures Keep(SortByCount(counts)[..m], HasCount(c)) <= Keep(counts, HasCount(c))
  {
    SortIsStable(counts, c);
    KeepOfPrefix(SortByCount(counts), m, HasCount(c));
  }

  /** The value of the "Top Habilidad" card: the first top skill's name, or
      `'N/A'` when there is none (or its name is empty, which `||` treats as
      missing). */
  function TopSkillLabel(top: seq<SkillCount>): (shown: string)
    ensures shown == "N/A" <==> |top| == 0 || top[0].name == "" || top[0].name == "N/A"
    ensures shown != "N/A" ==> shown == top[0].name
  {
    if |top| == 0 || top[0].name == "" then "N/A" else top[0].name
  }

  /** Each shown top skill's count is the number of times its name occurs
      among the tools, so at least one. */
  lemma TopSkillsCountOccurrences(names: seq<string>, top: seq<SkillCount>)
    requires top == TopSkills(CountSkills(names))
    ensures forall k :: 0 <= k < |top| ==> top[k].count == Occurrences(names, top[k].name) >= 1
  {
    var counts := CountSkills(names);
    forall k | 0 <= k < |top| ensures top[k].count == Occurrences(names, top[k].name) >= 1 {
      TopEntryIsCounted(counts, top, k);
      CountedEntry(names, top[k]);
    }
  }

  lemma TopEntryIsCounted(counts: seq<SkillCount>, top: seq<SkillCount>, k: nat)
    requires top == TopSkills(counts) && k < |top|
    ensures top[k] in counts
  {
    assert top[k] in multiset(top);
  }

  lemma CountedEntry(names: seq<string>, e: SkillCount)
    requires e in CountSkills(names)
    ensures e.count == Occurrences(names, e.name) >= 1
  {
    var counts := CountSkills(names);
    var i :| 0 <= i < |counts| && counts[i] == e;
    CountSkillsPositive(names, i);
  }

  /** A tool name left out of the top skills occurs no more often than any
      shown one. */
  lemma TopSkillsAreTheMostFrequent(names: seq<string>, top: seq<SkillCount>)
    requires top == TopSkills(CountSkills(names))
    ensures forall n, k :: n in names && n !in Names(top) && 0 <= k < |top| ==> Occurrences(names, n) <= top[k].count
  {
    var counts := CountSkills(names);
    forall n, k | n in names && n !in Names(top) && 0 <= k < |top| ensures Occurrences(names, n) <= top[k].count {
      var i := NameIndex(counts, n);
      CountSkillsPositive(names, i);
      NotShownByName(top, counts[i]);
      LeftOutNoHigher(counts, top, counts[i], k);
    }
  }

  lemma LeftOutNoHigher(counts: seq<SkillCount>, top: seq<SkillCount>, e: SkillCount, k: nat)
    requires top == TopSkills(counts) && e in counts && e !in top && k < |top|
    ensures e.count <= top[k].count
  {
  }

  /** The position of a key that is present. */
  function NameIndex(entries: seq<SkillCount>, n: string): (i: nat)
    requires n in Names(entries)
    ensures i < |entries| && entries[i].name == n
  {
    match FindFirst(entries, NameIs(n))
    case Some(i) => i
  }

  lemma NotShownByName(top: seq<SkillCount>, e: SkillCount)
    requires e.name !in Names(top)
    ensures e !in top
  {
  }

  /** The "Top 5" list for a list of tool names: at most five entries, each
      name at most once, highest count first, each with the number of times
      its name occurs. No name left out occurs more often than a name shown,
      and among names of equal count the ones shown come first in the order
      of the record's keys. */
  function TopSkillsOf(names: seq<string>): (top: seq<SkillCount>)
    ensures |top| <= TopCount && NonIncreasing(top) && DistinctNames(top)
    ensures forall c: nat :: Keep(top, HasCount(c)) <= Keep(CountSkills(names), HasCount(c))
    ensures forall k :: 0 <= k < |top| ==> top[k].count == Occurrences(names, top[k].name) >= 1
    ensures forall n, k :: n in names && n !in Names(top) && 0 <= k < |top| ==> Occurrences(names, n) <= top[k].count
  {
    var top := TopSkills(CountSkills(names));
    TopSkillsCountOccurrences(names, top);
    TopSkillsAreTheMostFrequent(names, top);
    top
  }

  /** Five entries are shown unless fewer distinct tool names exist. */
  lemma TopSkillsSize(names: seq<string>)
    ensures |TopSkillsOf(names)| == Min(|Dedup(names)|, TopCount)
  {
    CountSkillsFirstAppearance(names);
    assert |Names(CountSkills(names))| == |CountSkills(names)|;
  }

  datatype Stats = Stats(totalCandidates: nat, distribution: Distribution, topSkills: seq<SkillCount>)

  /** `fetchStats` on the rows of the admin reader: the candidate count, the
      bucket counts, and the top skills of all the rows' tools, each shown
      with the number of tools across the profiles that carry its name. */
  function FetchStats(rows: seq<Entry>, span: Span): (s: Stats)
    ensures s.totalCandidates == |rows| == Total(s.distribution)
    ensures forall b :: Count(s.distribution, b) == |Keep(rows, InBucket(b, span))|
    ensures s.topSkills == TopSkillsOf(AllToolNames(rows))
    ensures forall k :: 0 <= k < |s.topSkills| ==> s.topSkills[k].count == ToolsNamed(rows, s.topSkills[k].name) >= 1
  {
    assert forall b :: Count(Tally(rows, span), b) == |Keep(rows, InBucket(b, span))| by {
      forall b ensures Count(Tally(rows, span), b) == |Keep(rows, InBucket(b, span))| {
        TallyCounts(rows, span, b);
      }
    }
    Stats(|rows|, Tally(rows, span), TopSkillsOf(AllToolNames(rows)))
  }
}

=== FILE: entities.dfy ===
/** The records a profile is made of, the profile itself, and the four
    operations the store performs on its id-keyed collections. */
module Entities {
  import opened Basics

  datatype Role = UserRole | AdminRole

  /** An account: `role` is `'user'` or `'admin'`, `createdAt` an ISO timestamp. */
  datatype User = User(id: string, name: string, email: string, role: Role, createdAt: string)

  datatype PersonalData = PersonalData(
    fullName: string, email: string, phone: string, address: string,
    city: string, country: string, summary: string)

  datatype Experience = Experience(
    company: string, position: string, country: string, startDate: string,
    endDate: Option<string>, isCurrent: bool, description: string)

  datatype AcademicRecord = AcademicRecord(
    institution: string, degree: string, fieldOfStudy: string, startDate: string,
    endDate: Option<string>, inProgress: bool, description: string)

  datatype Proficiency = Basic | Intermediate | Advanced | Native

  datatype Language = Language(name: string, level: Proficiency)

  datatype Tool = Tool(name: string, category: string)

  datatype Reference = Reference(
    name: string, relationship: string, company: string, email: string, phone: string)

  datatype Settings = Settings(newOpportunities: bool)

  /** An element of a profile collection: the record the caller supplied
      (the source's `Omit<T, 'id'>`) together with the id the store gave it. */
  datatype Item<T> = Item(id: string, body: T)

  /** One user's profile: two singletons and five collections. */
  datatype Profile = Profile(
    personalData: PersonalData,
    experiences: seq<Item<Experience>>,
    academicRecords: seq<Item<AcademicRecord>>,
    languages: seq<Item<Language>>,
    tools: seq<Item<Tool>>,
    references: seq<Item<Reference>>,
    settings: Settings)

  /** The profile every user starts with and every missing profile reads as. */
  const EmptyProfile: Profile :=
    Profile(PersonalData("", "", "", "", "", "", ""), [], [], [], [], [], Settings(true))

  /** The filter predicate of a delete: keep the items whose id differs. */
  function HasOtherId<T>(id: string): Item<T> -> bool {
    (it: Item<T>) => it.id != id
  }

  /** `unshift`: the new item goes first, the others follow unchanged. */
  function Prepend<T>(items: seq<Item<T>>, x: Item<T>): (r: seq<Item<T>>)
    ensures |r| == |items| + 1
    ensures r[0] == x && r[1..] == items
  {
    [x] + items
  }

  /** `push`: the new item goes last, the others precede it unchanged. */
  function Append<T>(items: seq<Item<T>>, x: Item<T>): (r: seq<Item<T>>)
    ensures |r| == |items| + 1
    ensures r[|items|] == x && r[..|items|] == items
  {
    items + [x]
  }

  /** `map(it => it.id === x.id ? x : it)`: every item carrying `x`'s id is
      replaced by `x`, every other item stays where it is. */
  function ReplaceById<T>(items: seq<Item<T>>, x: Item<T>): (r: seq<Item<T>>)
    ensures |r| == |items|
    ensures forall i :: 0 <= i < |items| && items[i].id != x.id ==> r[i] == items[i]
    ensures forall i :: 0 <= i < |items| && items[i].id == x.id ==> r[i] == x
  {
    seq(|items|, i requires 0 <= i < |items| => if items[i].id == x.id then x else items[i])
  }

  function HasId<T>(id: string): Item<T> -> bool {
    (it: Item<T>) => it.id == id
  }

  /** `r` is `items` with every item carrying `id` taken out: the order of the
      rest is kept, each other item keeps all its copies, and no item with
      the id is left. */
  ghost predicate IsRemoval<T(!new)>(r: seq<Item<T>>, items: seq<Item<T>>, id: string) {
    && IsSubsequence(r, items)
    && forall y :: multiset(r)[y] == if y.id == id then 0 else multiset(items)[y]
  }

  /** `filter(it => it.id !== id)`: drops every item carrying `id`, and only
      those, so the list shrinks by exactly the number of them. */
  function RemoveById<T(!new)>(items: seq<Item<T>>, id: string): (r: seq<Item<T>>)
    ensures IsRemoval(r, items, id)
    ensures forall y :: y in r <==> y in items && y.id != id
    ensures |r| == |items| - |Keep(items, HasId(id))|
  {
    var r := Keep(items, HasOtherId(id));
    KeepIsSubsequence(items, HasOtherId(id));
    forall y ensures multiset(r)[y] == if y.id == id then 0 else multiset(items)[y] {
      KeepMultiset(items, HasOtherId(id), y);
    }
    KeepComplement(items, HasOtherId(id), HasId(id));
    r
  }

  /** Reading back after an update: the new value is present whenever its id
      was, and it is the only value left under that id. */
  lemma ReplaceThenRead<T>(items: seq<Item<T>>, x: Item<T>)
    ensures (exists i :: 0 <= i < |items| && items[i].id == x.id) ==> x in ReplaceById(items, x)
    ensures forall y :: y in ReplaceById(items, x) && y.id == x.id ==> y == x
    ensures (forall i :: 0 <= i < |items| ==> items[i].id != x.id) ==> ReplaceById(items, x) == items
  {
    var r := ReplaceById(items, x);
    if exists i :: 0 <= i < |items| && items[i].id == x.id {
      var i :| 0 <= i < |items| && items[i].id == x.id;
      assert r[i] == x;
    }
  }

  /** Deleting twice is deleting once, so a retried delete is harmless. */
  lemma RemoveIdempotent<T(!new)>(items: seq<Item<T>>, id: string)
    ensures RemoveById(RemoveById(items, id), id) == RemoveById(items, id)
  {
    KeepIdempotent(items, HasOtherId(id));
  }

  /** Deleting an id no item carries changes nothing. */
  lemma RemoveAbsent<T(!new)>(items: seq<Item<T>>, id: string)
    requires forall i :: 0 <= i < |items| ==> items[i].id != id
    ensures RemoveById(items, id) == items
  {
    KeepEverything(items, HasOtherId(id));
  }
}

=== FILE: routes.dfy ===
/** The navigation decisions of `components/AdminRoute.tsx` and `App.tsx`:
    pure functions from a path and the cached session to a page, a redirect,
    or a hand-off to the `PrivateRoute` guard, whose code is not part of this
    model. */
module Routes {
  import opened Basics
  import opened Text
  import opened Entities
  import opened Session

  /** A router path as its list of segments: `/admin/dashboard` is
      `["admin", "dashboard"]`. */
  type Path = seq<string>

  const LoginPath: Path := ["login"]
  const UserLandingPath: Path := ["my-profile"]
  const AdminLandingPath: Path := ["admin", "dashboard"]

  datatype Page =
    | LoginPage | RegisterPage
    | AdminDashboardPage | UserListPage | UserProfileViewPage(userId: string)
    | MyProfilePage | PersonalDataPage | ProfessionalExperiencePage | AcademicEducationPage
    | LanguagesPage | ToolManagementPage | ReferencesPage | SettingsPage

  /** What the router shows for a path. `Private` wraps the decision of a
      route nested under `PrivateRoute`: that guard runs first, and its own
      behaviour is not modelled. */
  datatype Decision = Render(page: Page) | Redirect(to: Path) | Private(inner: Decision)

  /** The verdict of `AdminRoute` before it renders the nested admin route. */
  datatype Gate = Open | Deny(to: Path)

  /** `AdminRoute`: authentication is checked first, then the role. */
  function AdminGate(a: AuthState): (g: Gate)
    ensures !IsAuthenticated(a) ==> g == Deny(LoginPath)
    ensures IsAuthenticated(a) && !IsAdmin(a) ==> g == Deny(UserLandingPath)
    ensures g == Open <==> IsAuthenticated(a) && IsAdmin(a)
  {
    if !IsAuthenticated(a) then Deny(LoginPath)
    else if !IsAdmin(a) then Deny(UserLandingPath)
    else Open
  }

  /** The guard in front of a nested admin route. */
  function BehindAdminGate(a: AuthState, inner: Decision): Decision {
    match AdminGate(a)
    case Open => inner
    case Deny(to) => Redirect(to)
  }

  /** The catch-all route `*`. Its element is built when `App` renders,
      which happens when the page loads; a later change of location does not
      render `App` again, so `a` here is the session of that render. */
  function CatchAll(a: AuthState): (d: Decision)
    ensures !IsAuthenticated(a) ==> d == Redirect(LoginPath)
    ensures IsAuthenticated(a) && IsAdmin(a) ==> d == Redirect(AdminLandingPath)
    ensures IsAuthenticated(a) && !IsAdmin(a) ==> d == Redirect(UserLandingPath)
  {
    if IsAuthenticated(a) then
      if IsAdmin(a) then Redirect(AdminLandingPath) else Redirect(UserLandingPath)
    else Redirect(LoginPath)
  }

  /** Drops the empty pieces at the end of a split location. */
  function DropTrailingEmpty(pieces: seq<string>): (r: seq<string>)
    ensures r <= pieces
    ensures |r| == 0 || r[|r| - 1] != ""
    ensures forall i :: |r| <= i < |pieces| ==> pieces[i] == ""
    decreases |pieces|
  {
    if |pieces| > 0 && pieces[|pieces| - 1] == "" then DropTrailingEmpty(pieces[..|pieces| - 1])
    else pieces
  }

  /** The segments of a location string (which starts with `/`): the pieces
      between slashes after the leading one. Every pattern of the table ends
      in an optional run of slashes, so trailing slashes are ignored; a
      doubled slash anywhere else leaves an empty segment in place. */
  function Segments(location: string): Path {
    var parts := Split(location, '/');
    DropTrailingEmpty(if parts[0] == "" then parts[1..] else parts)
  }

  /** A literal segment of the route table matches regardless of letter case. */
  predicate Is(segment: string, literal: string) {
    Lower(segment) == literal
  }

  /** The route table of `App`. Literal segments match regardless of letter
      case; `:userId` matches any one non-empty segment. The guards read the
      current session `a` whenever they are matched, while the catch-all
      redirects by `shell`, the session when `App` last rendered. */
  function Resolve(s: Path, a: AuthState, shell: AuthState): Decision {
    if |s| == 1 && Is(s[0], "login") then Render(LoginPage)
    else if |s| == 1 && Is(s[0], "register") then Render(RegisterPage)
    else if |s| == 1 && Is(s[0], "admin") then BehindAdminGate(a, Redirect(AdminLandingPath))
    else if |s| == 2 && Is(s[0], "admin") && Is(s[1], "dashboard") then
      BehindAdminGate(a, Render(AdminDashboardPage))
    else if |s| == 2 && Is(s[0], "admin") && Is(s[1], "users") then BehindAdminGate(a, Render(UserListPage))
    else if |s| == 3 && Is(s[0], "admin") && Is(s[1], "users") && s[2] != "" then
      BehindAdminGate(a, Render(UserProfileViewPage(s[2])))
    else if |s| == 0 then Private(Redirect(UserLandingPath))
    else if |s| == 1 && Is(s[0], "my-profile") then Private(Render(MyProfilePage))
    else if |s| == 1 && Is(s[0], "personal-data") then Private(Render(PersonalDataPage))
    else if |s| == 2 && Is(s[0], "dashboard") && Is(s[1], "professional-experience") then
      Private(Render(ProfessionalExperiencePage))
    else if |s| == 1 && Is(s[0], "academic-education") then Private(Render(AcademicEducationPage))
    else if |s| == 1 && Is(s[0], "languages") then Private(Render(LanguagesPage))
    else if |s| == 1 && Is(s[0], "tool-management") then Private(Render(ToolManagementPage))
    else if |s| == 1 && Is(s[0], "references") then Private(Render(ReferencesPage))
    else if |s| == 1 && Is(s[0], "settings") then Private(Render(SettingsPage))
    else CatchAll(shell)
  }

  /** What the router does for a location string. */
  function ResolveLocation(location: string, a: AuthState, shell: AuthState): Decision {
    Resolve(Segments(location), a, shell)
  }

  predicate IsAdminPage(p: Page) {
    p.AdminDashboardPage? || p.UserListPage? || p.UserProfileViewPage?
  }

  /** The login and register pages are shown whatever the session. */
  lemma PublicPagesNeedNoSession(a: AuthState, shell: AuthState)
    ensures Resolve(LoginPath, a, shell) == Render(LoginPage)
    ensures Resolve(["register"], a, shell) == Render(RegisterPage)
  {
    LowerOfLowerCase("login");
    LowerOfLowerCase("register");
  }

  /** The index routes: `/admin` goes on to the dashboard once the admin guard
      lets it through, `/` goes on to the profile inside `PrivateRoute`. */
  lemma IndexRedirects(a: AuthState, shell: AuthState)
    ensures Resolve(["admin"], a, shell) == BehindAdminGate(a, Redirect(AdminLandingPath))
    ensures Resolve([], a, shell) == Private(Redirect(UserLandingPath))
  {
    LowerOfLowerCase("admin");
  }

  /** Security of the admin area: a page of it is rendered only for an
      authenticated administrator, whatever the path. */
  lemma AdminPagesOnlyForAdmins(path: Path, a: AuthState, shell: AuthState)
    requires Resolve(path, a, shell).Render? && IsAdminPage(Resolve(path, a, shell).page)
    ensures IsAuthenticated(a) && IsAdmin(a)
  {
  }

  /** The admin dashboard path under each kind of session: login first for a
      missing token (even with an admin role cached), the user landing page
      for a non-admin, the dashboard for an admin. */
  lemma DashboardAccess(a: AuthState, shell: AuthState)
    ensures !IsAuthenticated(a) ==> Resolve(AdminLandingPath, a, shell) == Redirect(LoginPath)
    ensures IsAuthenticated(a) && !IsAdmin(a) ==> Resolve(AdminLandingPath, a, shell) == Redirect(UserLandingPath)
    ensures IsAuthenticated(a) && IsAdmin(a) ==> Resolve(AdminLandingPath, a, shell) == Render(AdminDashboardPage)
  {
    LowerOfLowerCase("admin");
    LowerOfLowerCase("dashboard");
  }

  /** No redirect loop at the catch-all: its target is itself handled by a
      route of the table (a page, the admin guard, or `PrivateRoute`), never
      by the catch-all again, whatever the current session. */
  lemma CatchAllTargetsAreRoutes(a: AuthState, shell: AuthState)
    ensures Resolve(CatchAll(shell).to, a, shell) != CatchAll(shell)
  {
    LowerOfLowerCase("login");
    LowerOfLowerCase("register");
    LowerOfLowerCase("admin");
    LowerOfLowerCase("dashboard");
    LowerOfLowerCase("my-profile");
  }

  /** The catch-all follows the session of the page load, not the current
      one: after logging in without a reload, an unknown location still
      redirects to the login page, while the admin guard already sees the
      new session. */
  lemma CatchAllUsesSessionAtLoad(x: string, a: AuthState, shell: AuthState)
    requires '/' !in x && x != "" && Resolve([x], a, shell) == CatchAll(shell)
    requires !IsAuthenticated(shell) && IsAuthenticated(a) && IsAdmin(a)
    ensures ResolveLocation("/" + x, a, shell) == Redirect(LoginPath)
    ensures ResolveLocation("/admin/dashboard", a, shell) == Render(AdminDashboardPage)
  {
    LocationOfOneSegment(x, a, shell);
    AdminDashboardSegments();
    DashboardAccess(a, shell);
  }

  /** The location `/admin/dashboard` is the admin landing path. */
  lemma AdminDashboardSegments()
    ensures Segments("/admin/dashboard") == AdminLandingPath
  {
    assert "/admin/dashboard" == "/" + "admin" + "/" + "dashboard";
    SegmentsOfLocation("/admin/dashboard", "admin", "dashboard");
  }

  lemma SegmentsOfLocation(location: string, x: string, y: string)
    requires '/' !in x && '/' !in y && x != "" && y != ""
    requires location == "/" + x + "/" + y
    ensures Segments(location) == [x, y]
  {
    SegmentsOfTwo(x, y);
  }

  /** A location string `/x` is the one-segment path `[x]`. */
  lemma LocationOfOneSegment(x: string, a: AuthState, shell: AuthState)
    requires '/' !in x && x != ""
    ensures ResolveLocation("/" + x, a, shell) == Resolve([x], a, shell)
  {
    SegmentsOfOne(x);
  }

  /** A location string `/x/y` is the two-segment path `[x, y]`. */
  lemma LocationOfTwoSegments(x: string, y: string, a: AuthState, shell: AuthState)
    requires '/' !in x && '/' !in y && x != "" && y != ""
    ensures ResolveLocation("/" + x + "/" + y, a, shell) == Resolve([x, y], a, shell)
  {
    SegmentsOfTwo(x, y);
  }

  /** A lower-case literal matches itself. */
  lemma LowerOfLowerCase(s: string)
    requires forall i :: 0 <= i < |s| ==> !('A' <= s[i] <= 'Z')
    ensures Lower(s) == s
  {
  }

  lemma SegmentsOfOne(x: string)
    requires '/' !in x && x != ""
    ensures Segments("/" + x) == [x]
  {
    SplitAtSeparator("", '/', x);
    assert "" + ['/'] + x == "/" + x;
    SplitWithoutSeparator(x, '/');
    assert Split("/" + x, '/') == ["", x];
  }

  lemma SegmentsOfTwo(x: string, y: string)
    requires '/' !in x && '/' !in y && x != "" && y != ""
    ensures Segments("/" + x + "/" + y) == [x, y]
  {
    SplitAtSeparator("", '/', x + "/" + y);
    assert "" + ['/'] + (x + "/" + y) == "/" + x + "/" + y;
    SplitAtSeparator(x, '/', y);
    assert x + ['/'] + y == x + "/" + y;
    SplitWithoutSeparator(y, '/');
    assert Split("/" + x + "/" + y, '/') == ["", x, y];
  }

  /** A trailing slash is ignored: `/x/` is the one-segment path `[x]`. */
  lemma TrailingSlashIgnored(x: string, a: AuthState, shell: AuthState)
    requires '/' !in x && x != ""
    ensures ResolveLocation("/" + x + "/", a, shell) == Resolve([x], a, shell)
  {
    SplitAtSeparator("", '/', x + "/");
    assert "" + ['/'] + (x + "/") == "/" + x + "/";
    SplitAtSeparator(x, '/', "");
    assert x + ['/'] + "" == x + "/";
    SplitWithoutSeparator("", '/');
    assert Split("/" + x + "/", '/') == ["", x, ""];
    assert DropTrailingEmpty([x, ""]) == DropTrailingEmpty([x]);
  }

  /** A doubled slash between two segments is not collapsed: `/x//y` has an
      empty middle segment, which no route of the table matches, so it falls
      through to the catch-all (`/admin//users` does not reach the list). */
  lemma InnerDoubleSlashFallsThrough(x: string, y: string, a: AuthState, shell: AuthState)
    requires '/' !in x && '/' !in y && x != "" && y != ""
    ensures Segments("/" + x + "//" + y) == [x, "", y]
    ensures ResolveLocation("/" + x + "//" + y, a, shell) == CatchAll(shell)
  {
    SegmentsOfDoubleSlash(x, y);
    assert !Is("", "users") && !Is("", "dashboard") && !Is("", "professional-experience");
  }

  lemma SegmentsOfDoubleSlash(x: string, y: string)
    requires '/' !in x && '/' !in y && x != "" && y != ""
    ensures Segments("/" + x + "//" + y) == [x, "", y]
  {
    var loc := "/" + x + "//" + y;
    SplitAtSeparator("", '/', x + "//" + y);
    assert "" + ['/'] + (x + "//" + y) == loc;
    SplitAtSeparator(x, '/', "/" + y);
    assert x + ['/'] + ("/" + y) == x + "//" + y;
    SplitAtSeparator("", '/', y);
    assert "" + ['/'] + y == "/" + y;
    SplitWithoutSeparator(y, '/');
    assert Split(loc, '/') == ["", x, "", y];
  }
}

=== FILE: session.dfy ===
/** The mock session layer of `auth.ts` together with the store it calls
    into. The browser's persistent storage is the pair `World(db, auth)` of
    the two stored keys, each `None` when absent or unparseable. */
module Session {
  import opened Basics
  import opened Text
  import opened Entities
  import opened Store

  /** The four cached fields; every one may be `null`. */
  datatype AuthState = AuthState(
    token: Option<string>, userName: Option<string>, userId: Option<string>, role: Option<Role>)

  const LoggedOut := AuthState(None, None, None, None)

  const AdminPassword := "admin123"
  const AdminToken := "mock-admin-token"
  const UserTokenPrefix := "mock-user-token-for-"
  const DefaultUserName := "Usuario"

  /** The two persisted keys: the embedded database and the session. */
  datatype World = World(db: Option<Database>, auth: Option<AuthState>)

  /** `getAuthState`: the stored state, or all-null when absent or unparseable. */
  function GetAuthState(stored: Option<AuthState>): (a: AuthState)
    ensures stored.None? ==> a.token.None? && a.userName.None? && a.userId.None? && a.role.None?
    ensures stored.Some? ==> a == stored.value
  {
    match stored
    case None => LoggedOut
    case Some(a) => a
  }

  /** `isAuthenticated`: a token is present (even an empty one). */
  predicate IsAuthenticated(a: AuthState) {
    a.token.Some?
  }

  /** `isAdmin`: the cached role is `'admin'`; the token is not consulted. */
  predicate IsAdmin(a: AuthState) {
    a.role == Some(AdminRole)
  }

  /** `getCurrentUserId`. */
  function GetCurrentUserId(a: AuthState): Option<string> {
    a.userId
  }

  /** `getUserName`: the cached name, or `'Usuario'` when it is null or empty. */
  function GetUserName(a: AuthState): (name: string)
    ensures name != ""
    ensures a.userName.Some? && a.userName.value != "" ==> name == a.userName.value
    ensures a.userName.None? || a.userName.value == "" ==> name == DefaultUserName
  {
    match a.userName
    case Some(n) => if n != "" then n else DefaultUserName
    case None => DefaultUserName
  }

  /** What reading absent or corrupt storage gives: logged out on every count. */
  lemma MissingSessionIsLoggedOut()
    ensures !IsAuthenticated(GetAuthState(None)) && !IsAdmin(GetAuthState(None))
    ensures GetCurrentUserId(GetAuthState(None)).None?
    ensures GetUserName(GetAuthState(None)) == DefaultUserName
  {
  }

  /** The hard-coded administrator credentials of `login`. */
  predicate IsAdminCredentials(email: string, password: string) {
    Lower(email) == AdminEmail && password == AdminPassword
  }

  /** The outcome of an asynchronous call: a returned boolean, or a thrown
      error (a rejected promise). */
  datatype Outcome = Returned(ok: bool) | Threw

  datatype Step = Step(world: World, outcome: Outcome)

  /** The session `login` writes for a regular account. */
  function UserSession(u: User): (a: AuthState)
    ensures IsAuthenticated(a) && !IsAdmin(a)
    ensures a.userId == Some(u.id) && a.userName == Some(u.name) && a.role == Some(UserRole)
  {
    AuthState(Some(UserTokenPrefix + u.id), Some(u.name), Some(u.id), Some(UserRole))
  }

  /** The session `login` writes for the administrator credentials. */
  function AdminSession(id: string): (a: AuthState)
    ensures IsAuthenticated(a) && IsAdmin(a)
    ensures a.userId == Some(id) && a.userName == Some(AdminName)
  {
    AuthState(Some(AdminToken), Some(AdminName), Some(id), Some(AdminRole))
  }

  /** `login`. Both paths read the database (persisting the seeded one when
      storage is empty).
      - The administrator credentials give an admin session for the first user
        with that email; when no such user exists the call throws
        (`adminUser!.id`) and the session is left alone.
      - Otherwise any account with that email is logged in as `'user'`, the
        password is not checked; no account means `false` and no change. */
  function Login(w: World, email: string, password: string, now: string): (r: Step)
    ensures r.world.db == Some(Load(w.db, now))
    ensures IsAdminCredentials(email, password) && FindUserByEmail(Load(w.db, now), email).Some? ==>
      r.outcome == Returned(true) &&
      r.world.auth == Some(AdminSession(FindUserByEmail(Load(w.db, now), email).value.id))
    ensures IsAdminCredentials(email, password) && FindUserByEmail(Load(w.db, now), email).None? ==>
      r.outcome == Threw && r.world.auth == w.auth
    ensures !IsAdminCredentials(email, password) && FindUserByEmail(Load(w.db, now), email).Some? ==>
      r.outcome == Returned(true) &&
      r.world.auth == Some(UserSession(FindUserByEmail(Load(w.db, now), email).value))
    ensures !IsAdminCredentials(email, password) && FindUserByEmail(Load(w.db, now), email).None? ==>
      r.outcome == Returned(false) && r.world.auth == w.auth
  {
    var db := Load(w.db, now);
    var found := FindUserByEmail(db, email);
    if IsAdminCredentials(email, password) then
      match found
      case None => Step(World(Some(db), w.auth), Threw)
      case Some(u) => Step(World(Some(db), Some(AdminSession(u.id))), Returned(true))
    else
      match found
      case None => Step(World(Some(db), w.auth), Returned(false))
      case Some(u) => Step(World(Some(db), Some(UserSession(u))), Returned(true))
  }

  /** `register`.
      - An empty name, email or password returns `false` before anything is read.
      - An email already in use (ignoring case) returns `false`; storage keeps
        the database it had (seeded if it was absent) and the session.
      - Otherwise one account is created with id `user_<millis>` and a user
        session is stored for it. */
  function Register(w: World, name: string, email: string, password: string, millis: string, now: string)
    : (r: Step)
    ensures name == "" || email == "" || password == "" ==> r == Step(w, Returned(false))
    ensures name != "" && email != "" && password != "" && FindUserByEmail(Load(w.db, now), email).Some? ==>
      r == Step(World(Some(Load(w.db, now)), w.auth), Returned(false))
    ensures name != "" && email != "" && password != "" && FindUserByEmail(Load(w.db, now), email).None? ==>
      var created := CreateUser(Load(w.db, now), name, email, millis, now);
      r == Step(World(Some(created.db), Some(UserSession(created.user))), Returned(true))
  {
    if name == "" || email == "" || password == "" then Step(w, Returned(false))
    else
      var db := Load(w.db, now);
      if FindUserByEmail(db, email).Some? then Step(World(Some(db), w.auth), Returned(false))
      else
        var created := CreateUser(db, name, email, millis, now);
        Step(World(Some(created.db), Some(UserSession(created.user))), Returned(true))
  }

  /** `logout`, storage part: the session key is removed, the database kept. */
  function Logout(w: World): (r: World)
    ensures r.db == w.db
    ensures r.auth.None?
    ensures !IsAuthenticated(GetAuthState(r.auth)) && !IsAdmin(GetAuthState(r.auth))
    ensures GetCurrentUserId(GetAuthState(r.auth)).None?
    ensures GetUserName(GetAuthState(r.auth)) == DefaultUserName
  {
    World(w.db, None)
  }

  /** A profile writer called through the session: the id is taken from the
      cached session and the write is scoped to it by the store. The session
      is untouched; without a session user storage is untouched; otherwise
      the session user's profile is the edited one and the accounts and every
      other profile are as loaded. */
  function EditProfile(w: World, e: ProfileEdit, now: string): (r: World)
    ensures r.auth == w.auth
    ensures !HasCurrentUser(GetCurrentUserId(GetAuthState(w.auth))) ==> r.db == w.db
    ensures HasCurrentUser(GetCurrentUserId(GetAuthState(w.auth))) ==>
      r.db.Some? && r.db.value.users == Load(w.db, now).users
    ensures HasCurrentUser(GetCurrentUserId(GetAuthState(w.auth))) ==>
      var id := GetCurrentUserId(GetAuthState(w.auth)).value;
      ProfileOf(Load(r.db, now), id) == ApplyEdit(ProfileOf(Load(w.db, now), id), e)
    ensures forall k :: GetCurrentUserId(GetAuthState(w.auth)) != Some(k) ==>
      ProfileOf(Load(r.db, now), k) == ProfileOf(Load(w.db, now), k)
  {
    World(ModifyCurrentUserProfile(w.db, GetCurrentUserId(GetAuthState(w.auth)), e, now), w.auth)
  }

  /** The key a profile reader (`getPersonalData`, `getTools`, ...) looks up:
      the cached id, or the string `"null"` that a null id becomes as a
      property name. */
  function ReadKey(userId: Option<string>): string {
    match userId
    case Some(id) => id
    case None => "null"
  }

  /** What a reader of `database.ts` leaves behind: storage after `readDb`,
      which writes the seeded database back when none was stored, and the
      value it returned. */
  datatype Read<T> = Read(world: World, value: T)

  /** The storage `readDb` leaves: the loaded database is persisted, the
      session key is not touched. */
  function Settled(w: World, now: string): (r: World)
    ensures r.db == Some(Load(w.db, now)) && r.auth == w.auth
    ensures w.db.Some? ==> r == w
  {
    World(Some(Load(w.db, now)), w.auth)
  }

  /** The profile readers (`getPersonalData`, `getTools`, ...): the profile
      stored under the session's id, or the empty one; the read persists the
      seeded database when storage was empty. */
  function OwnProfile(w: World, now: string): (r: Read<Profile>)
    ensures r.world == Settled(w, now)
    ensures w.db.None? ==> r.value == EmptyProfile
    ensures var uid := GetCurrentUserId(GetAuthState(w.auth));
      w.db.Some? && uid.Some? && uid.value in w.db.value.profiles ==> r.value == w.db.value.profiles[uid.value]
    ensures var uid := GetCurrentUserId(GetAuthState(w.auth));
      w.db.Some? && uid.Some? && uid.value !in w.db.value.profiles ==> r.value == EmptyProfile
    ensures GetCurrentUserId(GetAuthState(w.auth)).None? ==> r.value == ProfileOf(Load(w.db, now), "null")
  {
    Read(Settled(w, now), ProfileOf(Load(w.db, now), ReadKey(GetCurrentUserId(GetAuthState(w.auth)))))
  }

  /** `adminGetAllUsersWithProfiles` against storage: the rows of the loaded
      database, with the seeded database persisted when none was stored. */
  function AdminListing(w: World, now: string): (r: Read<seq<Entry>>)
    ensures r.world == Settled(w, now)
    ensures r.value == AdminGetAllUsersWithProfiles(Load(w.db, now))
    ensures w.db.None? ==> r.value == []
  {
    var db := Load(w.db, now);
    assert w.db.None? ==> !IsCandidate(db.users[0]) && db.users[1..] == [];
    Read(Settled(w, now), AdminGetAllUsersWithProfiles(db))
  }

  /** `adminGetUserProfile` against storage: the lookup in the loaded
      database, with the seeded database persisted when none was stored. */
  function AdminLookup(w: World, userId: string, now: string): (r: Read<Option<Entry>>)
    ensures r.world == Settled(w, now)
    ensures r.value == AdminGetUserProfile(Load(w.db, now), userId)
    ensures w.db.None? ==> (r.value.Some? <==> userId == AdminId)
  {
    Read(Settled(w, now), AdminGetUserProfile(Load(w.db, now), userId))
  }

  /** Once any reader has run, storage is settled: a later read, at any
      clock, sees the same database (the seeded administrator keeps the
      creation time of the first read) and returns the same value. */
  lemma ReadsSettle(w: World, now: string, later: string, userId: string)
    ensures var w1 := OwnProfile(w, now).world;
      OwnProfile(w1, later) == OwnProfile(w, now) &&
      AdminListing(w1, later) == AdminListing(w, now) &&
      AdminLookup(w1, userId, later) == AdminLookup(w, userId, now)
    ensures Settled(Settled(w, now), later) == Settled(w, now)
  {
  }

  // ---------------------------------------------------------------------
  // Properties of the combined state machine
  // ---------------------------------------------------------------------

  /** Ownership: a profile write changes only the profile stored under the
      session's user id. The user list, the session and every other user's
      stored profile are as before; without a session user nothing changes. */
  lemma {:induction false} WriteTouchesOnlyOwnProfile(w: World, e: ProfileEdit, now: string, other: string)
    requires GetCurrentUserId(GetAuthState(w.auth)) != Some(other)
    ensures var r := EditProfile(w, e, now);
      r.auth == w.auth &&
      (r.db == w.db || (r.db.Some? && r.db.value.users == Load(w.db, now).users)) &&
      ProfileOf(Load(r.db, now), other) == ProfileOf(Load(w.db, now), other)
  {
    var uid := GetCurrentUserId(GetAuthState(w.auth));
    var r := EditProfile(w, e, now);
    if HasCurrentUser(uid) {
      var before := Load(w.db, now);
      var after := r.db.value;
      assert other != uid.value;
      assert other in after.profiles <==> other in before.profiles;
    }
  }

  /** A logged-out world ignores every profile write. */
  lemma WriteWithoutSessionIsNoOp(w: World, e: ProfileEdit, now: string)
    requires w.auth.None?
    ensures EditProfile(w, e, now) == w
  {
  }

  /** The session predicates after a successful login match the credentials:
      authenticated, and administrator exactly for the admin credentials. */
  lemma LoginSessionMatchesCredentials(w: World, email: string, password: string, now: string)
    requires Login(w, email, password, now).outcome == Returned(true)
    ensures var a := GetAuthState(Login(w, email, password, now).world.auth);
      IsAuthenticated(a) && (IsAdmin(a) <==> IsAdminCredentials(email, password))
  {
  }

  /** A failed or throwing login leaves the session exactly as it was. */
  lemma LoginFailureKeepsSession(w: World, email: string, password: string, now: string)
    requires Login(w, email, password, now).outcome != Returned(true)
    ensures Login(w, email, password, now).world.auth == w.auth
  {
  }

  /** From empty storage, the admin credentials (any letter case in the
      email) log in the seeded administrator `admin_user_001`. */
  lemma AdminLoginOnFreshStorage(auth: Option<AuthState>, email: string, now: string)
    requires Lower(email) == AdminEmail
    ensures var r := Login(World(None, auth), email, AdminPassword, now);
      r.outcome == Returned(true) && r.world.auth == Some(AdminSession(AdminId))
  {
    var db := Load(None, now);
    LowerIdempotent(email);
    assert Lower(db.users[0].email) == Lower(email);
  }

  /** The admin email with any other password is an ordinary login of the
      stored admin account: role `'user'`, not an administrator. */
  lemma AdminEmailWrongPasswordIsUser(auth: Option<AuthState>, email: string, password: string, now: string)
    requires Lower(email) == AdminEmail && password != AdminPassword
    ensures var r := Login(World(None, auth), email, password, now);
      r.outcome == Returned(true) &&
      r.world.auth == Some(UserSession(User(AdminId, AdminName, AdminEmail, AdminRole, now))) &&
      !IsAdmin(GetAuthState(r.world.auth))
  {
    var db := Load(None, now);
    LowerIdempotent(email);
    assert Lower(db.users[0].email) == Lower(email);
  }

  /** A successful registration adds exactly one account, of role `'user'`,
      keeps the others, and leaves a session that is authenticated, not
      administrative, and points at the new account. */
  lemma RegisterSuccess(w: World, name: string, email: string, password: string, millis: string, now: string)
    requires Register(w, name, email, password, millis, now).outcome == Returned(true)
    ensures var r := Register(w, name, email, password, millis, now).world;
      var before := Load(w.db, now).users;
      r.db.Some? && |r.db.value.users| == |before| + 1 && r.db.value.users[..|before|] == before &&
      r.db.value.users[|before|].role == UserRole &&
      r.db.value.users[|before|].email == email &&
      IsAuthenticated(GetAuthState(r.auth)) && !IsAdmin(GetAuthState(r.auth)) &&
      GetCurrentUserId(GetAuthState(r.auth)) == Some(r.db.value.users[|before|].id)
  {
  }

  /** Registration never reuses an email: when the email is taken (in any
      letter case) it fails, and the stored users and session are as before. */
  lemma RegisterDuplicateFails(w: World, name: string, email: string, password: string, millis: string, now: string)
    requires FindUserByEmail(Load(w.db, now), email).Some?
    ensures var r := Register(w, name, email, password, millis, now);
      r.outcome == Returned(false) && r.world.auth == w.auth &&
      Load(r.world.db, now) == Load(w.db, now)
  {
  }

  /** After registering, logging in with the same email (and any password
      other than the admin one) resumes a user session for the new account. */
  lemma RegisterThenLogin(w: World, name: string, email: string, password: string, millis: string,
                          now: string, later: string, password2: string)
    requires Register(w, name, email, password, millis, now).outcome == Returned(true)
    requires !IsAdminCredentials(email, password2)
    ensures var w1 := Register(w, name, email, password, millis, now).world;
      var r := Login(w1, email, password2, later);
      r.outcome == Returned(true) && r.world.auth == w1.auth
  {
    var db := Load(w.db, now);
    CreateThenFind(db, name, email, millis, now);
  }

  /** A profile write made after a registration lands in the new account's
      profile, which the readers then return. */
  lemma RegisterThenAddTool(w: World, name: string, email: string, password: string, millis: string,
                            now: string, tool: Tool, toolId: string)
    requires Register(w, name, email, password, millis, now).outcome == Returned(true)
    ensures var w1 := Register(w, name, email, password, millis, now).world;
      var w2 := EditProfile(w1, AddTool(tool, toolId), now);
      OwnProfile(w2, now).value.tools == [Item(toolId, tool)]
  {
    var w1 := Register(w, name, email, password, millis, now).world;
    var id := "user_" + millis;
    assert GetCurrentUserId(GetAuthState(w1.auth)) == Some(id);
    assert HasCurrentUser(Some(id));
  }

  // ---------------------------------------------------------------------
  // Email uniqueness: an invariant of every reachable database
  // ---------------------------------------------------------------------

  /** No two accounts share an email, ignoring case. */
  predicate UniqueEmails(db: Database) {
    forall i, j :: 0 <= i < j < |db.users| ==> Lower(db.users[i].email) != Lower(db.users[j].email)
  }

  /** Stored storage, if present, has unique emails. */
  predicate WorldInvariant(w: World) {
    w.db.Some? ==> UniqueEmails(w.db.value)
  }

  /** Every operation of the session and store layers preserves uniqueness of
      emails: login and the writers never change the user list, and register
      only appends an email that nobody has. */
  lemma {:induction false} UniqueEmailsPreserved(w: World, now: string, name: string, email: string,
                                                 password: string, millis: string, e: ProfileEdit)
    requires WorldInvariant(w)
    ensures WorldInvariant(Register(w, name, email, password, millis, now).world)
    ensures WorldInvariant(Login(w, email, password, now).world)
    ensures WorldInvariant(EditProfile(w, e, now))
    ensures WorldInvariant(Logout(w))
  {
    var db := Load(w.db, now);
    assert UniqueEmails(db);
    var r := Register(w, name, email, password, millis, now);
    if r.outcome == Returned(true) {
      var created := CreateUser(db, name, email, millis, now);
      var users := created.db.users;
      assert FindUserByEmail(db, email).None?;
      forall i, j | 0 <= i < j < |users|
        ensures Lower(users[i].email) != Lower(users[j].email)
      {
        if j == |db.users| {
          assert users[i] == db.users[i];
        } else {
          assert users[i] == db.users[i] && users[j] == db.users[j];
        }
      }
    }
    var uid := GetCurrentUserId(GetAuthState(w.auth));
    if HasCurrentUser(uid) {
      assert EditProfile(w, e, now).db.value.users == db.users;
    }
  }

  /** With unique emails, an administrator login always resolves to the one
      account carrying the admin email. */
  lemma AdminLoginResolvesTheAdminAccount(w: World, email: string, now: string, i: nat)
    requires WorldInvariant(w)
    requires Lower(email) == AdminEmail
    requires i < |Load(w.db, now).users| && Lower(Load(w.db, now).users[i].email) == AdminEmail
    ensures Login(w, email, AdminPassword, now).world.auth ==
            Some(AdminSession(Load(w.db, now).users[i].id))
  {
    var db := Load(w.db, now);
    LowerIdempotent(email);
    var found := FindUserByEmail(db, email);
    assert found.Some?;
    var k :| 0 <= k < |db.users| && db.users[k] == found.value &&
             forall j :: 0 <= j < k ==> Lower(db.users[j].email) != Lower(email);
    assert k == i;
  }
}

=== FILE: store.dfy ===
/** The embedded profile store of `database.ts`: a user list plus a map from
    user id to profile, persisted under one storage key. The persisted value is
    an `Option<Database>`, `None` standing for an absent or unparseable key. */
module Store {
  import opened Basics
  import opened Text
  import opened Entities

  datatype Database = Database(users: seq<User>, profiles: map<string, Profile>)

  /** The bootstrap administrator every fresh database is seeded with. */
  const AdminId := "admin_user_001"
  const AdminName := "Administrador"
  const AdminEmail := "admin@usm.edu.co"

  /** `readDb`: a stored database is used as it is; an absent or corrupt one
      is replaced by a database holding exactly the administrator, created at
      `now`, with an empty profile. */
  function Load(stored: Option<Database>, now: string): (db: Database)
    ensures stored.Some? ==> db == stored.value
    ensures stored.None? ==> |db.users| == 1
    ensures stored.None? ==> db.users[0] == User(AdminId, AdminName, AdminEmail, AdminRole, now)
    ensures stored.None? ==> db.profiles.Keys == {AdminId} && db.profiles[AdminId] == EmptyProfile
  {
    match stored
    case Some(d) => d
    case None =>
      Database([User(AdminId, AdminName, AdminEmail, AdminRole, now)], map[AdminId := EmptyProfile])
  }

  /** `getUserProfile`: the stored profile, or the empty one when none is stored. */
  function ProfileOf(db: Database, userId: string): (p: Profile)
    ensures userId in db.profiles ==> p == db.profiles[userId]
    ensures userId !in db.profiles ==> p == EmptyProfile
  {
    if userId in db.profiles then db.profiles[userId] else EmptyProfile
  }

  /** The lookup predicate of `findUserByEmail`: emails equal after lower-casing. */
  function EmailMatches(email: string): User -> bool {
    (u: User) => Lower(u.email) == Lower(email)
  }

  /** `findUserByEmail`: the first user whose email equals `email` ignoring
      case, or `None` exactly when no user's email does. */
  function FindUserByEmail(db: Database, email: string): (r: Option<User>)
    ensures r.Some? ==> Lower(r.value.email) == Lower(email)
    ensures r.Some? ==> exists i :: 0 <= i < |db.users| && db.users[i] == r.value &&
                          forall j :: 0 <= j < i ==> Lower(db.users[j].email) != Lower(email)
    ensures r.None? <==> forall j :: 0 <= j < |db.users| ==> Lower(db.users[j].email) != Lower(email)
  {
    match FindFirst(db.users, EmailMatches(email))
    case None => None
    case Some(i) => Some(db.users[i])
  }

  /** The database after `createUser` together with the user it created. */
  datatype Created = Created(db: Database, user: User)

  /** `createUser`: appends one user with role `'user'` and id `user_<millis>`,
      installs an empty profile under that id, and changes nothing else. An
      earlier profile stored under the same id is overwritten. */
  function CreateUser(db: Database, name: string, email: string, millis: string, now: string): (r: Created)
    ensures r.user.id == "user_" + millis && r.user.role == UserRole
    ensures r.user.name == name && r.user.email == email && r.user.createdAt == now
    ensures |r.db.users| == |db.users| + 1
    ensures r.db.users[..|db.users|] == db.users && r.db.users[|db.users|] == r.user
    ensures r.user.id in r.db.profiles && r.db.profiles[r.user.id] == EmptyProfile
    ensures forall k :: k != r.user.id ==> (k in r.db.profiles <==> k in db.profiles)
    ensures forall k :: k != r.user.id && k in db.profiles ==> r.db.profiles[k] == db.profiles[k]
  {
    var user := User("user_" + millis, name, email, UserRole, now);
    Created(Database(db.users + [user], db.profiles[user.id := EmptyProfile]), user)
  }

  /** A freshly created user is what a later lookup of its email finds,
      provided no earlier user had that email. */
  lemma CreateThenFind(db: Database, name: string, email: string, millis: string, now: string)
    requires FindUserByEmail(db, email).None?
    ensures FindUserByEmail(CreateUser(db, name, email, millis, now).db, email) ==
            Some(CreateUser(db, name, email, millis, now).user)
  {
    var c := CreateUser(db, name, email, millis, now);
    var r := FindUserByEmail(c.db, email);
    assert c.db.users[|db.users|] == c.user;
    assert r.Some?;
    var i :| 0 <= i < |c.db.users| && c.db.users[i] == r.value &&
             forall j :: 0 <= j < i ==> Lower(c.db.users[j].email) != Lower(email);
    assert forall j :: 0 <= j < |db.users| ==> c.db.users[j] == db.users[j];
    assert i == |db.users|;
  }

  /** One change to a profile, as performed by the exported writers of the
      store. Added records carry the id the caller generated (`Date.now()`). */
  datatype ProfileEdit =
    | SavePersonalData(data: PersonalData)
    | AddExperience(experience: Experience, newId: string)
    | UpdateExperience(updatedExperience: Item<Experience>)
    | DeleteExperience(experienceId: string)
    | AddAcademicRecord(record: AcademicRecord, newId: string)
    | UpdateAcademicRecord(updatedRecord: Item<AcademicRecord>)
    | DeleteAcademicRecord(recordId: string)
    | AddLanguage(language: Language, newId: string)
    | DeleteLanguage(languageId: string)
    | AddTool(tool: Tool, newId: string)
    | DeleteTool(toolId: string)
    | AddReference(reference: Reference, newId: string)
    | UpdateReference(updatedReference: Item<Reference>)
    | DeleteReference(referenceId: string)
    | SaveSettings(settings: Settings)

  /** The seven parts of a profile. */
  datatype Field = PersonalDataField | ExperiencesField | AcademicRecordsField
                 | LanguagesField | ToolsField | ReferencesField | SettingsField

  /** The one part of the profile an edit is allowed to change. */
  function FieldOf(e: ProfileEdit): Field {
    match e
    case SavePersonalData(_) => PersonalDataField
    case AddExperience(_, _) => ExperiencesField
    case UpdateExperience(_) => ExperiencesField
    case DeleteExperience(_) => ExperiencesField
    case AddAcademicRecord(_, _) => AcademicRecordsField
    case UpdateAcademicRecord(_) => AcademicRecordsField
    case DeleteAcademicRecord(_) => AcademicRecordsField
    case AddLanguage(_, _) => LanguagesField
    case DeleteLanguage(_) => LanguagesField
    case AddTool(_, _) => ToolsField
    case DeleteTool(_) => ToolsField
    case AddReference(_, _) => ReferencesField
    case UpdateReference(_) => ReferencesField
    case DeleteReference(_) => ReferencesField
    case SaveSettings(_) => SettingsField
  }

  /** `p` and `q` agree on every part of the profile except possibly `f`. */
  predicate AgreeExcept(p: Profile, q: Profile, f: Field) {
    && (f != PersonalDataField ==> q.personalData == p.personalData)
    && (f != ExperiencesField ==> q.experiences == p.experiences)
    && (f != AcademicRecordsField ==> q.academicRecords == p.academicRecords)
    && (f != LanguagesField ==> q.languages == p.languages)
    && (f != ToolsField ==> q.tools == p.tools)
    && (f != ReferencesField ==> q.references == p.references)
    && (f != SettingsField ==> q.settings == p.settings)
  }

  /** The update function each writer hands to `modifyCurrentUserProfile`.
      Whatever the edit, only the part of the profile it names changes. */
  function ApplyEdit(p: Profile, e: ProfileEdit): (q: Profile)
    ensures AgreeExcept(p, q, FieldOf(e))
  {
    match FieldOf(e)
    case PersonalDataField => p.(personalData := e.data)
    case ExperiencesField => p.(experiences := EditExperiences(p.experiences, e))
    case AcademicRecordsField => p.(academicRecords := EditAcademicRecords(p.academicRecords, e))
    case LanguagesField => p.(languages := EditLanguages(p.languages, e))
    case ToolsField => p.(tools := EditTools(p.tools, e))
    case ReferencesField => p.(references := EditReferences(p.references, e))
    case SettingsField => p.(settings := e.settings)
  }

  /** `addProfessionalExperience` (unshift), `updateProfessionalExperience`,
      `deleteProfessionalExperience`. */
  function EditExperiences(xs: seq<Item<Experience>>, e: ProfileEdit): seq<Item<Experience>>
    requires FieldOf(e) == ExperiencesField
  {
    match e
    case AddExperience(x, id) => Prepend(xs, Item(id, x))
    case UpdateExperience(x) => ReplaceById(xs, x)
    case DeleteExperience(id) => RemoveById(xs, id)
    case _ => xs
  }

  /** `addAcademicRecord` (unshift), `updateAcademicRecord`, `deleteAcademicRecord`. */
  function EditAcademicRecords(xs: seq<Item<AcademicRecord>>, e: ProfileEdit): seq<Item<AcademicRecord>>
    requires FieldOf(e) == AcademicRecordsField
  {
    match e
    case AddAcademicRecord(x, id) => Prepend(xs, Item(id, x))
    case UpdateAcademicRecord(x) => ReplaceById(xs, x)
    case DeleteAcademicRecord(id) => RemoveById(xs, id)
    case _ => xs
  }

  /** `addLanguage` (push) and `deleteLanguage`; there is no language update. */
  function EditLanguages(xs: seq<Item<Language>>, e: ProfileEdit): seq<Item<Language>>
    requires FieldOf(e) == LanguagesField
  {
    match e
    case AddLanguage(x, id) => Append(xs, Item(id, x))
    case DeleteLanguage(id) => RemoveById(xs, id)
    case _ => xs
  }

  /** `addTool` (push) and `deleteTool`; there is no tool update. */
  function EditTools(xs: seq<Item<Tool>>, e: ProfileEdit): seq<Item<Tool>>
    requires FieldOf(e) == ToolsField
  {
    match e
    case AddTool(x, id) => Append(xs, Item(id, x))
    case DeleteTool(id) => RemoveById(xs, id)
    case _ => xs
  }

  /** `addReference` (unshift), `updateReference`, `deleteReference`. */
  function EditReferences(xs: seq<Item<Reference>>, e: ProfileEdit): seq<Item<Reference>>
    requires FieldOf(e) == ReferencesField
  {
    match e
    case AddReference(x, id) => Prepend(xs, Item(id, x))
    case UpdateReference(x) => ReplaceById(xs, x)
    case DeleteReference(id) => RemoveById(xs, id)
    case _ => xs
  }

  /** Saving a singleton overwrites it with exactly the value given. */
  lemma SaveOverwrites(p: Profile, e: ProfileEdit)
    requires e.SavePersonalData? || e.SaveSettings?
    ensures e.SavePersonalData? ==> ApplyEdit(p, e).personalData == e.data
    ensures e.SaveSettings? ==> ApplyEdit(p, e).settings == e.settings
  {
  }

  /** Experiences, academic records and references are added at the front:
      the new item with its id at index 0, the earlier items shifted by one. */
  lemma AddPrepends(p: Profile, e: ProfileEdit)
    requires e.AddExperience? || e.AddAcademicRecord? || e.AddReference?
    ensures e.AddExperience? ==>
      |ApplyEdit(p, e).experiences| == |p.experiences| + 1 &&
      ApplyEdit(p, e).experiences[0] == Item(e.newId, e.experience) &&
      ApplyEdit(p, e).experiences[1..] == p.experiences
    ensures e.AddAcademicRecord? ==>
      |ApplyEdit(p, e).academicRecords| == |p.academicRecords| + 1 &&
      ApplyEdit(p, e).academicRecords[0] == Item(e.newId, e.record) &&
      ApplyEdit(p, e).academicRecords[1..] == p.academicRecords
    ensures e.AddReference? ==>
      |ApplyEdit(p, e).references| == |p.references| + 1 &&
      ApplyEdit(p, e).references[0] == Item(e.newId, e.reference) &&
      ApplyEdit(p, e).references[1..] == p.references
  {
  }

  /** Languages and tools are added at the back. */
  lemma AddAppends(p: Profile, e: ProfileEdit)
    requires e.AddLanguage? || e.AddTool?
    ensures e.AddLanguage? ==>
      |ApplyEdit(p, e).languages| == |p.languages| + 1 &&
      ApplyEdit(p, e).languages[|p.languages|] == Item(e.newId, e.language) &&
      ApplyEdit(p, e).languages[..|p.languages|] == p.languages
    ensures e.AddTool? ==>
      |ApplyEdit(p, e).tools| == |p.tools| + 1 &&
      ApplyEdit(p, e).tools[|p.tools|] == Item(e.newId, e.tool) &&
      ApplyEdit(p, e).tools[..|p.tools|] == p.tools
  {
  }

  /** An update keeps length and order and swaps in the new value exactly at
      the positions whose id matches. */
  lemma UpdateReplaces(p: Profile, e: ProfileEdit)
    requires e.UpdateExperience? || e.UpdateAcademicRecord? || e.UpdateReference?
    ensures e.UpdateExperience? ==> var q := ApplyEdit(p, e).experiences; var x := e.updatedExperience;
      |q| == |p.experiences| &&
      forall i :: 0 <= i < |q| ==> q[i] == (if p.experiences[i].id == x.id then x else p.experiences[i])
    ensures e.UpdateAcademicRecord? ==> var q := ApplyEdit(p, e).academicRecords; var x := e.updatedRecord;
      |q| == |p.academicRecords| &&
      forall i :: 0 <= i < |q| ==> q[i] == (if p.academicRecords[i].id == x.id then x else p.academicRecords[i])
    ensures e.UpdateReference? ==> var q := ApplyEdit(p, e).references; var x := e.updatedReference;
      |q| == |p.references| &&
      forall i :: 0 <= i < |q| ==> q[i] == (if p.references[i].id == x.id then x else p.references[i])
  {
  }

  /** A delete keeps, in order, every copy of each item whose id differs and
      no item with the deleted id, so the collection shrinks by exactly the
      number of items that carried it. */
  lemma DeleteRemoves(p: Profile, e: ProfileEdit)
    requires IsDelete(e)
    ensures e.DeleteExperience? ==> var q := ApplyEdit(p, e).experiences;
      IsRemoval(q, p.experiences, e.experienceId) &&
      |q| == |p.experiences| - |Keep(p.experiences, HasId(e.experienceId))|
    ensures e.DeleteAcademicRecord? ==> var q := ApplyEdit(p, e).academicRecords;
      IsRemoval(q, p.academicRecords, e.recordId) &&
      |q| == |p.academicRecords| - |Keep(p.academicRecords, HasId(e.recordId))|
    ensures e.DeleteLanguage? ==> var q := ApplyEdit(p, e).languages;
      IsRemoval(q, p.languages, e.languageId) &&
      |q| == |p.languages| - |Keep(p.languages, HasId(e.languageId))|
    ensures e.DeleteTool? ==> var q := ApplyEdit(p, e).tools;
      IsRemoval(q, p.tools, e.toolId) &&
      |q| == |p.tools| - |Keep(p.tools, HasId(e.toolId))|
    ensures e.DeleteReference? ==> var q := ApplyEdit(p, e).references;
      IsRemoval(q, p.references, e.referenceId) &&
      |q| == |p.references| - |Keep(p.references, HasId(e.referenceId))|
  {
    match e
    case DeleteExperience(id) => DeleteExperienceRemoves(p, id);
    case DeleteAcademicRecord(id) => DeleteAcademicRecordRemoves(p, id);
    case DeleteLanguage(id) => DeleteLanguageRemoves(p, id);
    case DeleteTool(id) => DeleteToolRemoves(p, id);
    case DeleteReference(id) => DeleteReferenceRemoves(p, id);
  }

  // One delete per collection, each proved on its own: the profile with
  // that collection filtered, which is a removal of the id.

  lemma DeleteExperienceRemoves(p: Profile, id: string)
    ensures ApplyEdit(p, DeleteExperience(id)) == p.(experiences := RemoveById(p.experiences, id))
    ensures var q := ApplyEdit(p, DeleteExperience(id)).experiences;
      IsRemoval(q, p.experiences, id) && |q| == |p.experiences| - |Keep(p.experiences, HasId(id))|
  {
    assert ApplyEdit(p, DeleteExperience(id)) == p.(experiences := EditExperiences(p.experiences, DeleteExperience(id)));
    assert EditExperiences(p.experiences, DeleteExperience(id)) == RemoveById(p.experiences, id);
  }

  lemma DeleteAcademicRecordRemoves(p: Profile, id: string)
    ensures ApplyEdit(p, DeleteAcademicRecord(id)) == p.(academicRecords := RemoveById(p.academicRecords, id))
    ensures var q := ApplyEdit(p, DeleteAcademicRecord(id)).academicRecords;
      IsRemoval(q, p.academicRecords, id) && |q| == |p.academicRecords| - |Keep(p.academicRecords, HasId(id))|
  {
    assert ApplyEdit(p, DeleteAcademicRecord(id)) == p.(academicRecords := EditAcademicRecords(p.academicRecords, DeleteAcademicRecord(id)));
    assert EditAcademicRecords(p.academicRecords, DeleteAcademicRecord(id)) == RemoveById(p.academicRecords, id);
  }

  lemma DeleteLanguageRemoves(p: Profile, id: string)
    ensures ApplyEdit(p, DeleteLanguage(id)) == p.(languages := RemoveById(p.languages, id))
    ensures var q := ApplyEdit(p, DeleteLanguage(id)).languages;
      IsRemoval(q, p.languages, id) && |q| == |p.languages| - |Keep(p.languages, HasId(id))|
  {
    assert ApplyEdit(p, DeleteLanguage(id)) == p.(languages := EditLanguages(p.languages, DeleteLanguage(id)));
    assert EditLanguages(p.languages, DeleteLanguage(id)) == RemoveById(p.languages, id);
  }

  lemma DeleteToolRemoves(p: Profile, id: string)
    ensures ApplyEdit(p, DeleteTool(id)) == p.(tools := RemoveById(p.tools, id))
    ensures var q := ApplyEdit(p, DeleteTool(id)).tools;
      IsRemoval(q, p.tools, id) && |q| == |p.tools| - |Keep(p.tools, HasId(id))|
  {
    assert ApplyEdit(p, DeleteTool(id)) == p.(tools := EditTools(p.tools, DeleteTool(id)));
    assert EditTools(p.tools, DeleteTool(id)) == RemoveById(p.tools, id);
  }

  lemma DeleteReferenceRemoves(p: Profile, id: string)
    ensures ApplyEdit(p, DeleteReference(id)) == p.(references := RemoveById(p.references, id))
    ensures var q := ApplyEdit(p, DeleteReference(id)).references;
      IsRemoval(q, p.references, id) && |q| == |p.references| - |Keep(p.references, HasId(id))|
  {
    assert ApplyEdit(p, DeleteReference(id)) == p.(references := EditReferences(p.references, DeleteReference(id)));
    assert EditReferences(p.references, DeleteReference(id)) == RemoveById(p.references, id);
  }

  /** No item of the collection a delete targets carries the deleted id. */
  predicate DeletedIdAbsent(p: Profile, e: ProfileEdit) {
    match e
    case DeleteExperience(id) => forall i :: 0 <= i < |p.experiences| ==> p.experiences[i].id != id
    case DeleteAcademicRecord(id) => forall i :: 0 <= i < |p.academicRecords| ==> p.academicRecords[i].id != id
    case DeleteLanguage(id) => forall i :: 0 <= i < |p.languages| ==> p.languages[i].id != id
    case DeleteTool(id) => forall i :: 0 <= i < |p.tools| ==> p.tools[i].id != id
    case DeleteReference(id) => forall i :: 0 <= i < |p.references| ==> p.references[i].id != id
    case _ => true
  }

  /** Deleting an id that no item of the collection carries changes nothing. */
  lemma DeleteAbsentIsNoOp(p: Profile, e: ProfileEdit)
    requires IsDelete(e) && DeletedIdAbsent(p, e)
    ensures ApplyEdit(p, e) == p
  {
    match e
    case DeleteExperience(id) => DeleteExperienceRemoves(p, id); RemoveAbsent(p.experiences, id);
    case DeleteAcademicRecord(id) => DeleteAcademicRecordRemoves(p, id); RemoveAbsent(p.academicRecords, id);
    case DeleteLanguage(id) => DeleteLanguageRemoves(p, id); RemoveAbsent(p.languages, id);
    case DeleteTool(id) => DeleteToolRemoves(p, id); RemoveAbsent(p.tools, id);
    case DeleteReference(id) => DeleteReferenceRemoves(p, id); RemoveAbsent(p.references, id);
  }

  /** The five deletes. */
  predicate IsDelete(e: ProfileEdit) {
    e.DeleteExperience? || e.DeleteAcademicRecord? || e.DeleteLanguage? ||
    e.DeleteTool? || e.DeleteReference?
  }

  /** A delete edit, applied twice, has the effect of applying it once. */
  lemma DeleteEditIdempotent(p: Profile, e: ProfileEdit)
    requires IsDelete(e)
    ensures ApplyEdit(ApplyEdit(p, e), e) == ApplyEdit(p, e)
  {
    var q := ApplyEdit(p, e);
    match e
    case DeleteExperience(id) => DeleteExperienceRemoves(p, id); DeleteExperienceRemoves(q, id); RemoveIdempotent(p.experiences, id);
    case DeleteAcademicRecord(id) => DeleteAcademicRecordRemoves(p, id); DeleteAcademicRecordRemoves(q, id); RemoveIdempotent(p.academicRecords, id);
    case DeleteLanguage(id) => DeleteLanguageRemoves(p, id); DeleteLanguageRemoves(q, id); RemoveIdempotent(p.languages, id);
    case DeleteTool(id) => DeleteToolRemoves(p, id); DeleteToolRemoves(q, id); RemoveIdempotent(p.tools, id);
    case DeleteReference(id) => DeleteReferenceRemoves(p, id); DeleteReferenceRemoves(q, id); RemoveIdempotent(p.references, id);
  }

  /** `!userId` in `modifyCurrentUserProfile`: a missing id and the empty
      string both mean that nobody is logged in. */
  predicate HasCurrentUser(userId: Option<string>) {
    userId.Some? && userId.value != ""
  }

  /** `modifyCurrentUserProfile`: without a current user the stored database
      is left exactly as it was (it is not even read). Otherwise the
      database is loaded, the current user's profile (or an empty one) is
      edited and stored back under that user's id; the user list and every
      other user's profile are untouched. The id is not checked against the
      user list. */
  function ModifyCurrentUserProfile(stored: Option<Database>, userId: Option<string>, e: ProfileEdit, now: string)
    : (r: Option<Database>)
    ensures !HasCurrentUser(userId) ==> r == stored
    ensures HasCurrentUser(userId) ==> r.Some?
    ensures HasCurrentUser(userId) ==> r.value.users == Load(stored, now).users
    ensures HasCurrentUser(userId) ==>
      userId.value in r.value.profiles &&
      r.value.profiles[userId.value] == ApplyEdit(ProfileOf(Load(stored, now), userId.value), e)
    ensures HasCurrentUser(userId) ==> forall k :: k != userId.value ==>
      (k in r.value.profiles <==> k in Load(stored, now).profiles) &&
      (k in r.value.profiles ==> r.value.profiles[k] == Load(stored, now).profiles[k])
  {
    if !HasCurrentUser(userId) then stored
    else
      var db := Load(stored, now);
      var id := userId.value;
      Some(db.(profiles := db.profiles[id := ApplyEdit(ProfileOf(db, id), e)]))
  }

  /** Deleting twice through the store is deleting once, whoever is logged in. */
  lemma DeleteTwiceIsDeleteOnce(stored: Option<Database>, userId: Option<string>, e: ProfileEdit, now: string)
    requires IsDelete(e)
    ensures ModifyCurrentUserProfile(ModifyCurrentUserProfile(stored, userId, e, now), userId, e, now) ==
            ModifyCurrentUserProfile(stored, userId, e, now)
  {
    if HasCurrentUser(userId) {
      var once := ModifyCurrentUserProfile(stored, userId, e, now);
      var id := userId.value;
      var p := ProfileOf(Load(stored, now), id);
      DeleteEditIdempotent(p, e);
      assert ProfileOf(once.value, id) == ApplyEdit(p, e);
      var twice := ModifyCurrentUserProfile(once, userId, e, now);
      assert twice.value.profiles == once.value.profiles;
    }
  }

  /** Adding an experience and reading the user's profile back returns the new
      record first, with the id it was given, ahead of the earlier ones. */
  lemma AddExperienceThenRead(stored: Option<Database>, userId: string, x: Experience, newId: string, now: string)
    requires userId != ""
    ensures var after := ModifyCurrentUserProfile(stored, Some(userId), AddExperience(x, newId), now);
      after.Some? &&
      ProfileOf(after.value, userId).experiences ==
        [Item(newId, x)] + ProfileOf(Load(stored, now), userId).experiences
  {
  }

  /** Updating a record and reading the profile back: the updated value is
      there whenever its id was, and is the only record under that id. */
  lemma UpdateExperienceThenRead(stored: Option<Database>, userId: string, x: Item<Experience>, now: string)
    requires userId != ""
    requires exists i :: 0 <= i < |ProfileOf(Load(stored, now), userId).experiences| &&
                         ProfileOf(Load(stored, now), userId).experiences[i].id == x.id
    ensures var after := ModifyCurrentUserProfile(stored, Some(userId), UpdateExperience(x), now);
      after.Some? &&
      x in ProfileOf(after.value, userId).experiences &&
      forall y :: y in ProfileOf(after.value, userId).experiences && y.id == x.id ==> y == x
  {
    ReplaceThenRead(ProfileOf(Load(stored, now), userId).experiences, x);
  }

  /** The role test of the admin listing: only `'user'` accounts are candidates. */
  function IsCandidate(u: User): bool {
    u.role == UserRole
  }

  /** One row of the admin readers: a user and its profile. */
  datatype Entry = Entry(user: User, profile: Profile)

  function EntryUsers(rows: seq<Entry>): (us: seq<User>)
    ensures |us| == |rows|
    ensures forall i :: 0 <= i < |rows| ==> us[i] == rows[i].user
  {
    seq(|rows|, i requires 0 <= i < |rows| => rows[i].user)
  }

  /** `adminGetAllUsersWithProfiles`: exactly the role-`'user'` accounts, in
      list order (administrators are left out), each paired with its stored
      profile or the empty profile. */
  function AdminGetAllUsersWithProfiles(db: Database): (rows: seq<Entry>)
    ensures EntryUsers(rows) == Keep(db.users, IsCandidate)
    ensures IsSubsequence(EntryUsers(rows), db.users)
    ensures forall u :: u in EntryUsers(rows) <==> u in db.users && u.role == UserRole
    ensures forall i :: 0 <= i < |rows| ==> rows[i].profile == ProfileOf(db, rows[i].user.id)
  {
    var candidates := Keep(db.users, IsCandidate);
    KeepIsSubsequence(db.users, IsCandidate);
    var rows := seq(|candidates|, i requires 0 <= i < |candidates| =>
      Entry(candidates[i], ProfileOf(db, candidates[i].id)));
    assert EntryUsers(rows) == candidates;
    rows
  }

  /** The lookup predicate of `adminGetUserProfile`. */
  function IdMatches(userId: string): User -> bool {
    (u: User) => u.id == userId
  }

  /** `adminGetUserProfile`: `None` (the source's `null`) exactly when no user
      has the id; otherwise the first user with that id, of any role, and the
      profile stored under the id (or the empty one). */
  function AdminGetUserProfile(db: Database, userId: string): (r: Option<Entry>)
    ensures r.None? <==> forall j :: 0 <= j < |db.users| ==> db.users[j].id != userId
    ensures r.Some? ==> r.value.user.id == userId && r.value.profile == ProfileOf(db, userId)
    ensures r.Some? ==> exists i :: 0 <= i < |db.users| && db.users[i] == r.value.user &&
                          forall j :: 0 <= j < i ==> db.users[j].id != userId
  {
    match FindFirst(db.users, IdMatches(userId))
    case None => None
    case Some(i) => Some(Entry(db.users[i], ProfileOf(db, userId)))
  }
}

=== FILE: text.dfy ===
/** The few JavaScript string primitives the application relies on:
    `toLowerCase`, `includes`, `split` with a one-character separator and the
    `Number(...)` conversion, each restricted to the inputs the model needs. */
module Text {

  /** `toLowerCase` on one character; only the ASCII letters are mapped. */
  function LowerChar(c: char): char {
    if 'A' <= c <= 'Z' then (c as int + 32) as char else c
  }

  /** `toLowerCase` on a whole string, character by character. */
  function Lower(s: string): (r: string)
    ensures |r| == |s|
    ensures forall i :: 0 <= i < |s| ==> r[i] == LowerChar(s[i])
  {
    seq(|s|, i requires 0 <= i < |s| => LowerChar(s[i]))
  }

  /** Lower-casing twice is lower-casing once. */
  lemma LowerIdempotent(s: string)
    ensures Lower(Lower(s)) == Lower(s)
  {
  }

  /** `hay.includes(needle)`: `needle` occurs in `hay` at some offset. */
  predicate Contains(hay: string, needle: string) {
    exists i :: 0 <= i <= |hay| && OccursAt(hay, needle, i)
  }

  /** `needle` is found in `hay` starting at offset `i`. */
  predicate OccursAt(hay: string, needle: string, i: int) {
    0 <= i && i + |needle| <= |hay| && hay[i..i + |needle|] == needle
  }

  /** The empty string is included in every string, the empty one too. */
  lemma ContainsEmpty(hay: string)
    ensures Contains(hay, "")
  {
    assert OccursAt(hay, "", 0);
  }

  /** `s.split(sep)` for a one-character separator: always at least one piece,
      and no piece contains the separator. */
  function Split(s: string, sep: char): (parts: seq<string>)
    ensures |parts| >= 1
    ensures forall i :: 0 <= i < |parts| ==> sep !in parts[i]
    decreases |s|
  {
    if |s| == 0 then [""]
    else
      var rest := Split(s[1..], sep);
      if s[0] == sep then [""] + rest
      else [[s[0]] + rest[0]] + rest[1..]
  }

  /** `parts.join(sep)`, the inverse of `Split`. */
  function Join(parts: seq<string>, sep: char): string
    requires |parts| >= 1
    decreases |parts|
  {
    if |parts| == 1 then parts[0] else parts[0] + [sep] + Join(parts[1..], sep)
  }

  /** Splitting loses nothing: joining the pieces back gives the input. */
  lemma {:induction false} SplitJoin(s: string, sep: char)
    ensures Join(Split(s, sep), sep) == s
    decreases |s|
  {
    if |s| > 0 {
      var rest := Split(s[1..], sep);
      SplitJoin(s[1..], sep);
      if s[0] == sep {
        assert ([""] + rest)[1..] == rest;
        assert s == [s[0]] + s[1..];
      } else {
        var parts := [[s[0]] + rest[0]] + rest[1..];
        assert parts[1..] == rest[1..];
        assert s == [s[0]] + s[1..];
      }
    }
  }

  /** A string without the separator splits into itself alone. */
  lemma {:induction false} SplitWithoutSeparator(a: string, sep: char)
    requires sep !in a
    ensures Split(a, sep) == [a]
    decreases |a|
  {
    if |a| > 0 {
      assert a[0] != sep;
      SplitWithoutSeparator(a[1..], sep);
      assert [a[0]] + a[1..] == a;
    }
  }

  /** The first separator ends the first piece. */
  lemma {:induction false} SplitAtSeparator(a: string, sep: char, b: string)
    requires sep !in a
    ensures Split(a + [sep] + b, sep) == [a] + Split(b, sep)
    decreases |a|
  {
    var s := a + [sep] + b;
    if |a| == 0 {
      assert s[1..] == b;
    } else {
      assert s[1..] == a[1..] + [sep] + b;
      assert a[0] != sep;
      SplitAtSeparator(a[1..], sep, b);
      assert [a[0]] + a[1..] == a;
    }
  }

  /** The value of `Number(s)`: a finite number or NaN. */
  datatype Num = Finite(value: int) | NaN

  predicate IsDigit(c: char) {
    '0' <= c <= '9'
  }

  /** Every character of `s` is an ASCII decimal digit (vacuously true of ""). */
  predicate IsDigits(s: string) {
    forall i :: 0 <= i < |s| ==> IsDigit(s[i])
  }

  /** Decimal value of a digit string, read left to right. */
  function DigitsValue(s: string): (n: nat)
    requires IsDigits(s)
    decreases |s|
  {
    if |s| == 0 then 0
    else DigitsValue(s[..|s| - 1]) * 10 + (s[|s| - 1] as int - '0' as int)
  }

  /** `Number(s)` on the strings the model meets: a string of decimal digits
      converts to its value, the empty string converts to 0, and every other
      string is NaN. */
  function ToNumber(s: string): (r: Num)
    ensures s == "" ==> r == Finite(0)
    ensures r.Finite? <==> IsDigits(s)
    ensures r.Finite? ==> r.value >= 0
  {
    if IsDigits(s) then Finite(DigitsValue(s)) else NaN
  }

  /** The digit strings name every natural number, so a numeric bound written
      in a filter option can be any `nat`. */
  function NatToDigits(n: nat): (s: string)
    ensures IsDigits(s) && |s| > 0
    ensures DigitsValue(s) == n
    decreases n
  {
    var last := [('0' as int + n % 10) as char];
    if n < 10 then last
    else
      var s := NatToDigits(n / 10) + last;
      assert s[..|s| - 1] == NatToDigits(n / 10);
      s
  }
}

=== FILE: user_list.dfy ===
/** The candidate list of `pages/admin/UserListPage.tsx`: every row of the
    admin reader becomes a candidate summary, and the list shown is the
    candidates that pass a free-text search and an experience-range option. */
module UserList {
  import opened Basics
  import opened Text
  import opened Entities
  import opened Store

  /** The signed length in years of one experience, from its start date to
      its end date (or to the current time when it has none). The date and
      clock arithmetic is the caller's. */
  type Span = Experience -> real

  function Abs(x: real): (r: real)
    ensures r >= 0.0 && (r == x || r == -x)
  {
    if x < 0.0 then -x else x
  }

  /** The `reduce` of both admin pages: the sum of the absolute lengths of a
      profile's experiences. */
  function TotalYears(exps: seq<Item<Experience>>, span: Span): (t: real)
    ensures t >= 0.0
    ensures |exps| == 0 ==> t == 0.0
    decreases |exps|
  {
    if |exps| == 0 then 0.0
    else TotalYears(exps[..|exps| - 1], span) + Abs(span(exps[|exps| - 1].body))
  }

  /** One row of the table. */
  datatype Candidate = Candidate(
    id: string, name: string, email: string, summary: string,
    experienceYears: int, skills: seq<Item<Tool>>)

  const SummaryLength := 100
  const Ellipsis := "..."

  /** `summary.substring(0, 100) + '...'`: at most the first hundred
      characters, always followed by an ellipsis (short summaries too). */
  function Summary(s: string): (r: string)
    ensures |r| == Min(|s|, SummaryLength) + 3 && |r| <= SummaryLength + 3
    ensures r[|r| - 3..] == Ellipsis
    ensures r[..|r| - 3] <= s
    ensures |s| <= SummaryLength ==> r == s + Ellipsis
  {
    s[..Min(|s|, SummaryLength)] + Ellipsis
  }

  /** The candidate mapping of `fetchCandidates`. */
  function ToCandidate(row: Entry, span: Span): (c: Candidate)
    ensures c.id == row.user.id && c.name == row.user.name && c.email == row.user.email
    ensures c.skills == row.profile.tools
    ensures c.summary == Summary(row.profile.personalData.summary)
    ensures c.experienceYears == TotalYears(row.profile.experiences, span).Floor
    ensures c.experienceYears >= 0
    ensures c.experienceYears as real <= TotalYears(row.profile.experiences, span) < c.experienceYears as real + 1.0
    ensures |row.profile.experiences| == 0 ==> c.experienceYears == 0
  {
    Candidate(row.user.id, row.user.name, row.user.email, Summary(row.profile.personalData.summary),
              TotalYears(row.profile.experiences, span).Floor, row.profile.tools)
  }

  function Candidates(rows: seq<Entry>, span: Span): (cs: seq<Candidate>)
    ensures |cs| == |rows|
    ensures forall i :: 0 <= i < |rows| ==> cs[i] == ToCandidate(rows[i], span)
  {
    seq(|rows|, i requires 0 <= i < |rows| => ToCandidate(rows[i], span))
  }

  /** The search filter: the lower-cased term occurs in the lower-cased
      name, the lower-cased email, or the lower-cased name of some skill. */
  predicate MatchesSearch(c: Candidate, term: string) {
    var q := Lower(term);
    || Contains(Lower(c.name), q)
    || Contains(Lower(c.email), q)
    || exists i :: 0 <= i < |c.skills| && Contains(Lower(c.skills[i].body.name), q)
  }

  /** `years >= bound` and `years <= bound`; a comparison with NaN is false. */
  predicate AtLeast(years: int, bound: Num) {
    bound.Finite? && years >= bound.value
  }

  predicate AtMost(years: int, bound: Num) {
    bound.Finite? && years <= bound.value
  }

  /** The experience filter exactly as the page writes it: `'all'` keeps
      everyone; otherwise the option is split at `-`, each piece goes
      through `Number`, and a missing upper piece (`isNaN(undefined)`) leaves
      the range open. `Number("")` is 0, not NaN, so an option ending in `-`
      gets the upper bound 0. */
  predicate MatchesExperienceAsWritten(years: int, filter: string) {
    if filter == "all" then true
    else
      var parts := Split(filter, '-');
      var min := ToNumber(parts[0]);
      var max := if |parts| >= 2 then ToNumber(parts[1]) else NaN;
      if max.NaN? then AtLeast(years, min) else AtLeast(years, min) && AtMost(years, max)
  }

  /** The experience filter as the option list means it: an empty upper piece
      (the `"11-"` option, "10+ años") leaves the range open. */
  predicate MatchesExperience(years: int, filter: string) {
    if filter == "all" then true
    else
      var parts := Split(filter, '-');
      var min := ToNumber(parts[0]);
      var max := if |parts| >= 2 && parts[1] != "" then ToNumber(parts[1]) else NaN;
      if max.NaN? then AtLeast(years, min) else AtLeast(years, min) && AtMost(years, max)
  }

  /** What the page keeps: the search filter, then the experience filter as
      written. */
  function Shown(term: string, filter: string): Candidate -> bool {
    (c: Candidate) => MatchesSearch(c, term) && MatchesExperienceAsWritten(c.experienceYears, filter)
  }

  /** What the page means to keep: the same, with the corrected range test. */
  function ShownCorrected(term: string, filter: string): Candidate -> bool {
    (c: Candidate) => MatchesSearch(c, term) && MatchesExperience(c.experienceYears, filter)
  }

  function SearchFilter(term: string): Candidate -> bool {
    (c: Candidate) => MatchesSearch(c, term)
  }

  function ExperienceFilterAsWritten(filter: string): Candidate -> bool {
    (c: Candidate) => MatchesExperienceAsWritten(c.experienceYears, filter)
  }

  function ExperienceFilter(filter: string): Candidate -> bool {
    (c: Candidate) => MatchesExperience(c.experienceYears, filter)
  }

  /** `filteredCandidates` as the page computes it: the search filter, then
      the experience filter as written. The two passes are one filter by
      both tests, so the result keeps the list order and every copy of each
      candidate that passes both, and nothing else. */
  function FilteredCandidates(cs: seq<Candidate>, term: string, filter: string): (r: seq<Candidate>)
    ensures r == Keep(cs, Shown(term, filter))
    ensures IsSubsequence(r, cs)
    ensures forall c :: c in r <==>
      c in cs && MatchesSearch(c, term) && MatchesExperienceAsWritten(c.experienceYears, filter)
  {
    KeepKeep(cs, SearchFilter(term), ExperienceFilterAsWritten(filter), Shown(term, filter));
    KeepIsSubsequence(cs, Shown(term, filter));
    Keep(Keep(cs, SearchFilter(term)), ExperienceFilterAsWritten(filter))
  }

  /** The same two passes with the corrected range test. */
  function FilteredCandidatesCorrected(cs: seq<Candidate>, term: string, filter: string): (r: seq<Candidate>)
    ensures r == Keep(cs, ShownCorrected(term, filter))
    ensures IsSubsequence(r, cs)
    ensures forall c :: c in r <==>
      c in cs && MatchesSearch(c, term) && MatchesExperience(c.experienceYears, filter)
  {
    KeepKeep(cs, SearchFilter(term), ExperienceFilter(filter), ShownCorrected(term, filter));
    KeepIsSubsequence(cs, ShownCorrected(term, filter));
    Keep(Keep(cs, SearchFilter(term)), ExperienceFilter(filter))
  }

  /** With an empty search box and the option `'all'` every candidate is
      listed, in order, by the page and by the corrected filter alike. */
  lemma NoFilterKeepsEveryone(cs: seq<Candidate>)
    ensures FilteredCandidates(cs, "", "all") == cs
    ensures FilteredCandidatesCorrected(cs, "", "all") == cs
  {
    forall i | 0 <= i < |cs| ensures SearchFilter("")(cs[i]) {
      ContainsEmpty(Lower(cs[i].name));
    }
    KeepEverything(cs, SearchFilter(""));
    KeepEverything(cs, ExperienceFilterAsWritten("all"));
    KeepEverything(cs, ExperienceFilter("all"));
  }

  /** The page lists the role-`'user'` accounts of the store only: every
      candidate shown, whatever the search and the option, carries the id,
      name and email of such an account. */
  lemma ShownAreUserAccounts(db: Database, span: Span, term: string, filter: string, c: Candidate)
    requires c in FilteredCandidates(Candidates(AdminGetAllUsersWithProfiles(db), span), term, filter)
    ensures exists u :: u in db.users && u.role == UserRole && u.id == c.id && u.name == c.name && u.email == c.email
  {
    var rows := AdminGetAllUsersWithProfiles(db);
    var cs := Candidates(rows, span);
    var i :| 0 <= i < |cs| && cs[i] == c;
    var u := rows[i].user;
    assert EntryUsers(rows)[i] == u;
    assert u in db.users && u.role == UserRole;
  }

  lemma DigitsHaveNoDash(s: string)
    requires IsDigits(s)
    ensures '-' !in s
  {
  }

  /** A closed option `"min-max"` keeps exactly the candidates with
      `min <= years <= max`, both bounds included. */
  lemma ClosedRange(years: int, lo: string, hi: string)
    requires IsDigits(lo) && IsDigits(hi) && hi != ""
    ensures MatchesExperience(years, lo + "-" + hi) <==> DigitsValue(lo) <= years <= DigitsValue(hi)
  {
    ClosedRangeParts(lo, hi);
  }

  /** On a closed option the page as written and the corrected filter agree. */
  lemma ClosedRangeAsWritten(years: int, lo: string, hi: string)
    requires IsDigits(lo) && IsDigits(hi) && hi != ""
    ensures MatchesExperienceAsWritten(years, lo + "-" + hi) <==> DigitsValue(lo) <= years <= DigitsValue(hi)
  {
    ClosedRangeParts(lo, hi);
  }

  /** How a closed option splits. */
  lemma ClosedRangeParts(lo: string, hi: string)
    requires IsDigits(lo) && IsDigits(hi)
    ensures Split(lo + "-" + hi, '-') == [lo, hi]
    ensures lo + "-" + hi != "all"
  {
    DigitsHaveNoDash(lo);
    DigitsHaveNoDash(hi);
    SplitAtSeparator(lo, '-', hi);
    SplitWithoutSeparator(hi, '-');
    assert lo + ['-'] + hi == lo + "-" + hi;
    NotAll(lo, hi);
  }

  /** No option containing a dash is the literal `'all'`. */
  lemma NotAll(lo: string, hi: string)
    ensures lo + "-" + hi != "all"
  {
    var f := lo + "-" + hi;
    assert f[|lo|] == '-';
  }

  /** Corrected: an open option `"min-"` keeps exactly the candidates with at
      least `min` years. */
  lemma OpenRangeKeepsAtLeast(years: int, lo: string)
    requires IsDigits(lo)
    ensures MatchesExperience(years, lo + "-") <==> years >= DigitsValue(lo)
  {
    DigitsHaveNoDash(lo);
    SplitAtSeparator(lo, '-', "");
    SplitWithoutSeparator("", '-');
    assert lo + ['-'] + "" == lo + "-";
    NotAll(lo, "");
    assert lo + "-" + "" == lo + "-";
  }

  /** As written: the open option `"min-"` keeps only `min <= years <= 0`,
      so for any `min >= 1` (the page offers `"11-"`) nobody passes. */
  lemma OpenRangeAsWritten(years: int, lo: string)
    requires IsDigits(lo)
    ensures MatchesExperienceAsWritten(years, lo + "-") <==> DigitsValue(lo) <= years <= 0
  {
    DigitsHaveNoDash(lo);
    SplitAtSeparator(lo, '-', "");
    SplitWithoutSeparator("", '-');
    assert lo + ['-'] + "" == lo + "-";
    NotAll(lo, "");
    assert lo + "-" + "" == lo + "-";
  }

  /** The concrete case: a candidate with 12 years fails the `"11-"` option
      as the page writes it, and passes the corrected one. */
  lemma OpenRangeCounterexample()
    ensures !MatchesExperienceAsWritten(12, "11-")
    ensures MatchesExperience(12, "11-")
  {
    ElevenValue();
    OpenRangeAsWritten(12, "11");
    OpenRangeKeepsAtLeast(12, "11");
    assert "11" + "-" == "11-";
  }

  lemma ElevenValue()
    ensures IsDigits("11") && DigitsValue("11") == 11
  {
    assert "11"[..1] == "1";
    assert "1"[..0] == "";
  }

  /** Two years pass the `"0-2"` option, as written and corrected. */
  lemma TwoYearsInZeroToTwo()
    ensures MatchesExperience(2, "0-2") && MatchesExperienceAsWritten(2, "0-2")
  {
    assert "0"[..0] == "" && "2"[..0] == "";
    assert DigitsValue("0") == 0 && DigitsValue("2") == 2;
    ClosedRange(2, "0", "2");
    ClosedRangeAsWritten(2, "0", "2");
    assert "0" + "-" + "2" == "0-2";
  }

  /** On the list: the page's `"11-"` option ("10+ años") shows nobody,
      whatever the search. */
  lemma ElevenPlusShowsNobody(cs: seq<Candidate>, term: string)
    ensures FilteredCandidates(cs, term, "11-") == []
  {
    var r := FilteredCandidates(cs, term, "11-");
    ElevenValue();
    assert "11" + "-" == "11-";
    forall c | c in cs ensures !MatchesExperienceAsWritten(c.experienceYears, "11-") {
      OpenRangeAsWritten(c.experienceYears, "11");
    }
  }

  /** On the list, corrected: an open option `"min-"` shows exactly the
      candidates that match the search and have at least `min` years. */
  lemma CorrectedOpenRangeShowsAtLeast(cs: seq<Candidate>, term: string, lo: string)
    requires IsDigits(lo)
    ensures forall c :: c in FilteredCandidatesCorrected(cs, term, lo + "-") <==>
      c in cs && MatchesSearch(c, term) && c.experienceYears >= DigitsValue(lo)
  {
    forall c | c in cs ensures MatchesExperience(c.experienceYears, lo + "-") <==> c.experienceYears >= DigitsValue(lo) {
      OpenRangeKeepsAtLeast(c.experienceYears, lo);
    }
  }

  /** Every closed range of whole years has an option that selects exactly
      it: the decimal forms of its bounds joined by a dash. */
  lemma EveryRangeHasAnOption(years: int, lo: nat, hi: nat)
    ensures MatchesExperience(years, NatToDigits(lo) + "-" + NatToDigits(hi)) <==> lo <= years <= hi
    ensures MatchesExperienceAsWritten(years, NatToDigits(lo) + "-" + NatToDigits(hi)) <==> lo <= years <= hi
  {
    ClosedRange(years, NatToDigits(lo), NatToDigits(hi));
    ClosedRangeAsWritten(years, NatToDigits(lo), NatToDigits(hi));
  }
}
